=== FILE: README.md ===
# In-memory namespace simulator, modelled in Dafny

`fileSystemOperation.py` keeps a tree of `Directory` objects, each holding
a list of `files` and a list of `subdirectories`, under a root named `/`.
It also keeps a current directory. Commands act on the tree: `mkdir`,
`touch` and `echo` on the current directory, `cd` through a bare-name
search (`find_directory`), and `mv`, `cp` and `rm` on paths cut by
`os.path.split`. This project models that core as pure functions over an
immutable tree and proves what each command does.

Modules:

- `Wrappers`: `Option`, plus `CmdResult` (`Ok`, a reported
  `NotFound`, or `Crash` for an uncaught Python exception).
- `Tree`: the node types and index paths (`Path = seq<nat>`), with
  replacement at a path and its frame lemmas. It also holds node counts,
  the first-match scan, and the `Detach`/`Attach` pair used by `rm` and
  `mv` and by `cp`.
- `Resolver`: `find_directory`, and an independent pre-order `Scan` that
  it is proved equal to.
- `Namespace`: the `FileSystem` state, plus `mkdir`, `touch`, `echo`,
  `cd` and `ls`.
- `PathSplit`: POSIX `os.path.split`, and a declarative description it is
  proved to be the only solution of.
- `PathOps`: `mv`, `cp` and `rm`.
- `Scenarios`: concrete command sequences.

Modelling choices that follow the code:

- A node is either a file or a directory. `find_directory` only walks
  `subdirectories`, but `mv` and `cp` append files there too. So the
  lookup can return a file whose name matches. It raises an
  `AttributeError` when it has to descend into a file with another name;
  `Lookup.Raises` models that case.
- The current directory is a path in the tree, or `None` after `cd` found
  nothing. If it is `None`, or it is a file that `cd` resolved to, then
  `mkdir`, `touch`, `echo` and `ls` raise. The model says `Crash`.
- In `mv`, `cp` and `rm`, "the parent did not resolve" means
  `find_directory` answered `None` or a file. The next statement then
  raises; the model says `Crash`. Only a missing leaf is the reported
  `NotFound`.
- `mv` and `cp` resolve the destination head before they look for the
  source. A lookup that raises there therefore wins over a missing source.
  `mv` renames only directories. Both commands append to `subdirectories`
  whatever the kind of the entry.
- Removing "by identity" in the list comprehensions is removal of the one
  entry at the found position. In a tree every object occurs once.
- A `Crash` or `NotFound` outcome carries no state. In the source, a
  crash in `mv` after the source lists were filtered leaves a half-done
  mutation behind. The model does not describe it.

Behaviour of the code that the model keeps on purpose:

- `find_directory` can answer with a file whose name matches.
- A parent that does not resolve makes `mv`, `cp` and `rm` raise. They do
  not report NotFound in that case.
- `rm missing.txt` raises on a fresh system, and whenever no directory is
  named by the empty string. The head of `missing.txt` is the empty
  string; see `Scenarios.RmBareName`.
- A moved file keeps its own name. Only a moved directory takes the
  destination leaf.
- After a `cd` that found nothing, the commands that use the current
  directory raise.

## Model

| member | source | states |
|---|---|---|
| Namespace.Init | fileSystemOperation.py:17-20 | A new system is a valid state with a single empty root named "/". The root is current, and looking up "/" finds it. |
| Resolver.FindDirectory | fileSystemOperation.py:32-39 | A found node is a node of the tree carrying the queried name. The root itself is the answer exactly when its own name matches. |
| Resolver.FindAmong | fileSystemOperation.py:35-38 | The loop over `subdirectories` from position i only finds nodes below a child at position i or later, and whatever it finds carries the queried name. |
| Resolver.FindDirectoryIsScan | fileSystemOperation.py:32-39 | The recursive search gives the same answer as one pass over the pre-order listing of the tree: it stops at the first node that is not a directory with another name, returns it if the name matches, and raises otherwise. |
| Resolver.FindDirectoryFirstMatch | fileSystemOperation.py:32-39 | A found node is the first node of the pre-order listing carrying the name. Every node listed before it is a directory with a different name. |
| Resolver.FindDirectoryNone | fileSystemOperation.py:32-39 | None is returned exactly when every node of the tree is a directory with a different name. |
| Resolver.FindDirectoryCrash | fileSystemOperation.py:32-39 | The search raises exactly when, in pre-order, it reaches a file with a different name before any node carrying the name. |
| Namespace.Mkdir | fileSystemOperation.py:41-43 | It raises exactly when there is no current directory object. Otherwise the current directory gains exactly one new empty directory at the end of its subdirectories, and nothing else changes. Its files and name stay. Each of its ancestors keeps its name, files and number of subdirectories. Every node off that ancestry stays, and the node count grows by one. |
| Namespace.Cd | fileSystemOperation.py:45-49 | "/" always selects the root. Any other argument selects the first node in pre-order with that name. The current directory becomes None exactly when every node is a directory with another name, and the command raises exactly when the lookup raises. The tree is untouched. |
| Namespace.Ls | fileSystemOperation.py:51-55 | The listing has one line per file, in order, tagged File, followed by one line per subdirectories entry, in order, tagged Directory whatever the entry is. It raises when there is no current directory object. |
| Namespace.Touch | fileSystemOperation.py:57-59 | The current directory gains exactly one empty-content file at the end of its files. Its name and subdirectories stay. Each of its ancestors keeps its name, files and number of subdirectories. Every node off that ancestry stays, and the node count grows by one. |
| Namespace.Echo | fileSystemOperation.py:61-71 | If a file of that name exists, only the first one gets the new content and the number of files stays the same. Otherwise one file with the content is appended. The current directory's name and subdirectories stay. Each of its ancestors keeps its name, files and number of subdirectories, and every node off that ancestry stays. |
| Namespace.EchoSets | fileSystemOperation.py:61-71 | After echo, the first file of the current directory carrying the name exists and holds the new content. |
| Namespace.EchoIdempotent | fileSystemOperation.py:61-71 | Running the same echo twice leaves the same state as running it once. |
| Namespace.CreatesAppend | fileSystemOperation.py:41-59 | A run of mkdir and touch from a directory never crashes and keeps the current directory. It leaves that directory's files as the old ones followed by the touched names, and its subdirectories as the old ones followed by the made names, each in command order. |
| Namespace.CreatesThenLs | fileSystemOperation.py:41-59 | ls after such a run from an empty directory lists exactly the touched files in order, then exactly the made directories in order. |
| PathSplit.Split | fileSystemOperation.py:74-75 | The tail is the separator-free end of the path. The head is what precedes it, with trailing separators removed unless the head is separators only. |
| PathSplit.SplitUnique | fileSystemOperation.py:74-75 | Any head and tail pair meeting that description is the pair Split returns. |
| PathOps.ParentDir | fileSystemOperation.py:77-78 | A head resolves to a directory exactly when find_directory finds a directory object carrying that name. That directory is then the node find_directory found. |
| PathOps.LocateSource | fileSystemOperation.py:80-88 | It raises exactly when the head does not resolve to a directory. It reports NotFound exactly when no entry of `files + subdirectories` carries the leaf name. Otherwise it returns the first entry that carries it. |
| PathOps.Rm | fileSystemOperation.py:131-147 | Crash and NotFound occur exactly as for locating the entry. On success, the parent keeps its name, and exactly that one entry is gone from the list that held it. The other list is unchanged, and the remaining entries keep their order. The node count drops by the size of the removed subtree. The current directory is the same object. The parent's ancestors keep their names, files and number of subdirectories. Every other node outside the removed subtree is unchanged. |
| PathOps.Renamed | fileSystemOperation.py:93-94 | A moved directory takes the destination leaf name and keeps its contents. A moved file keeps its own name. |
| PathOps.Mv | fileSystemOperation.py:73-96 | It reports NotFound exactly when the destination lookup does not raise and the source entry is missing. It succeeds exactly when the entry exists and the destination head is a directory. On success, the node count is unchanged. The source parent keeps its name, its files are its old files without the entry, and its subdirectories are its old ones without the entry; only a subdirectory leading to the destination may differ. The destination keeps its name and files. Its subdirectories are its old ones followed by the moved entry, and only a subdirectory leading back to the source parent may differ. When the two are the same directory, the old lists are taken without the entry. Every other directory keeps its name and files, and also its number of subdirectories. The current directory is the same object. Nodes off both ancestries are unchanged. |
| PathOps.Copy | fileSystemOperation.py:117-123 | The copy has the destination name and the same kind. A copied file has the same content. A copied directory has the same files in the same order and no subdirectories. The copy has as many nodes as the source. |
| PathOps.Cp | fileSystemOperation.py:100-127 | Failures follow mv. On success, the destination directory's subdirectories gain the copy at the end and its files stay. The node count grows by the size of the source, and the source entry is unchanged unless the destination is that directory itself. The current directory stays. The destination's ancestors keep their names, files and number of subdirectories, and every other node stays. |
| Scenarios.DuplicateMkdir | fileSystemOperation.py:41-43 | `mkdir a; mkdir a; ls` lists two directories named a. |
| Scenarios.DocsSession | fileSystemOperation.py:41-71 | `mkdir docs; cd docs; touch t.txt; echo t.txt hello; ls` lists the one file t.txt. A further `echo t.txt world` leaves that single file holding "world". |
| Scenarios.RmBareName | fileSystemOperation.py:131-137 | On a fresh system, `rm x` raises for every name x without a separator, such as `missing.txt`. The head of the path is the empty string, which names no directory. |
| Scenarios.RmRootedName | fileSystemOperation.py:131-144 | On a fresh system, `rm /x` reports NotFound for every non-empty name x without a separator, such as `missing.txt`. |
| Scenarios.CpToMissingHead | fileSystemOperation.py:100-127 | `cp /a zz/x`, where a holds a subdirectory and no node is named zz, finds the source entry, finds no destination directory, and raises. A copied directory with subdirectories is not excluded when the destination head names nothing. |
| Scenarios.MovedFileBecomesDirectoryEntry | fileSystemOperation.py:90-96 | After `touch f; mv /f /g`, the root holds the file in its subdirectories under its old name. ls lists it as a directory, and `cd x` then raises. |

## Left out

- `save_state` / `load_state` (lines 22-30): file I/O and JSON. Loading is a `find_directory` by name, which `Resolver` already models.
- `main` and every `print` (lines 151-198): the command loop and console output. Commands return a `CmdResult` or a listing instead.
- PathOps.Cp: the recursive branch for a directory with subdirectories (lines 124-125) is not modelled. When the destination head names a directory, `CpDefined` requires the copied entry to have no subdirectories. In that branch the source calls `cp` on synthesized paths and appends its `None` result. When the destination head does not name a directory, nothing is excluded and the model reports the crash; see `Scenarios.CpToMissingHead`.
- PathOps.Rm: `RmDefined` requires that the current directory is not the removed entry or inside it. The source would leave it pointing into a detached subtree.
- PathOps.Mv: when the destination head names a directory, `MvDefined` requires that neither the current directory nor that directory is the moved entry or inside it. The source would leave the former pointing into a relocated subtree, and would make the latter a cycle detached from the root. When the destination head does not name a directory, nothing is excluded and the model reports the crash.
- PathOps.Mv: a crash after the source lists were filtered (destination head is None or a file) is reported as `Crash` without the partly mutated state the source leaves.
- Resolver.FindDirectory: Python's recursion limit is not modelled. `find_directory` recurses once per tree level (line 36), so on a tree about a thousand levels deep every command that searches raises `RecursionError`, which ends the session. The model's `Raises`, and the `Crash` that commands derive from it, covers only the `AttributeError` on a file; `FindDirectoryCrash` and the other search properties hold for trees of any depth.
- PathSplit.Split: only the POSIX rule is modelled; the Windows `ntpath` rule is not.

=== FILE: namespace.dfy ===
/** The FileSystem object and the commands that act on its current
    directory: mkdir, cd, ls, touch and echo. */
module Namespace {
  import opened Wrappers
  import opened Tree
  import opened Resolver

  /** The root directory and the current directory. The current directory is
      the path of a node of the tree, or None after a cd that found nothing. */
  datatype FileSystem = FileSystem(root: Node, cwd: Option<Path>)

  const RootName: string := "/"

  /** Every reachable state: the root is the directory named "/" and the
      current directory, when set, is a node of the tree (possibly a file
      that cd resolved to). */
  predicate Valid(fs: FileSystem) {
    && fs.root.Dir? && fs.root.name == RootName
    && (fs.cwd.Some? ==> ValidPath(fs.root, fs.cwd.value))
  }

  /** A fresh FileSystem: an empty root named "/" that is also current. */
  function Init(): (fs: FileSystem)
    ensures Valid(fs) && Count(fs.root) == 1
    ensures FindDirectory(fs.root, RootName) == Found([]) && fs.cwd == Some([])
  {
    FileSystem(EmptyDir(RootName), Some([]))
  }

  /** The current directory when it is set and is a directory object; any
      other current directory makes the commands below raise. */
  function CwdDir(fs: FileSystem): (r: Option<Path>)
    requires Valid(fs)
    ensures r.Some? <==> fs.cwd.Some? && At(fs.root, fs.cwd.value).Dir?
    ensures r.Some? ==> r.value == fs.cwd.value
  {
    match fs.cwd
    case Some(p) => if At(fs.root, p).Dir? then Some(p) else None
    case None => None
  }

  /** The state after the current directory at `p` becomes `d`. */
  function WithCwd(fs: FileSystem, p: Path, d: Node): (r: FileSystem)
    requires Valid(fs) && fs.cwd == Some(p) && Extends(At(fs.root, p), d)
    ensures Valid(r) && r.cwd == fs.cwd && At(r.root, p) == d
    ensures forall q :: ValidPath(fs.root, q) ==> ValidPath(r.root, q)
    ensures forall q :: ValidPath(fs.root, q) && !(q <= p) ==> At(r.root, q) == At(fs.root, q)
    ensures forall q :: ValidPath(fs.root, q) && q < p ==> SameShell(At(fs.root, q), At(r.root, q))
    ensures Count(r.root) + Count(At(fs.root, p)) == Count(fs.root) + Count(d)
  {
    var r := fs.(root := Replace(fs.root, p, d));
    forall q | ValidPath(fs.root, q)
      ensures ValidPath(r.root, q) && (!(q <= p) ==> At(r.root, q) == At(fs.root, q))
      ensures q < p ==> SameShell(At(fs.root, q), At(r.root, q))
    {
      ReplaceExtending(fs.root, p, d, q);
    }
    CountReplace(fs.root, p, d);
    r
  }

  /** mkdir: appends one new empty directory to the current directory's
      `subdirectories`; names need not be unique. */
  function Mkdir(fs: FileSystem, name: string): (r: CmdResult<FileSystem>)
    requires Valid(fs)
    ensures !r.NotFound?
    ensures r.Crash? <==> CwdDir(fs).None?
    ensures r.Ok? ==> Valid(r.value) && r.value.cwd == fs.cwd
    ensures r.Ok? ==>
      var p := fs.cwd.value; var d := At(fs.root, p); var d' := At(r.value.root, p);
      && d'.Dir? && d'.name == d.name && d'.files == d.files
      && d'.subdirs == d.subdirs + [EmptyDir(name)]
    ensures r.Ok? ==> Count(r.value.root) == Count(fs.root) + 1
    ensures r.Ok? ==> forall q :: ValidPath(fs.root, q) && !(q <= fs.cwd.value) ==>
      ValidPath(r.value.root, q) && At(r.value.root, q) == At(fs.root, q)
    ensures r.Ok? ==> forall q :: ValidPath(fs.root, q) && q < fs.cwd.value ==>
      ValidPath(r.value.root, q) && SameShell(At(fs.root, q), At(r.value.root, q))
  {
    match CwdDir(fs)
    case None => Crash
    case Some(p) =>
      var d := At(fs.root, p);
      assert Count(EmptyDir(name)) == 1;
      Ok(WithCwd(fs, p, AddSubdir(d, EmptyDir(name))))
  }

  /** touch: appends one new empty-content file to the current directory's
      `files`; names need not be unique. */
  function Touch(fs: FileSystem, name: string): (r: CmdResult<FileSystem>)
    requires Valid(fs)
    ensures !r.NotFound?
    ensures r.Crash? <==> CwdDir(fs).None?
    ensures r.Ok? ==> Valid(r.value) && r.value.cwd == fs.cwd
    ensures r.Ok? ==>
      var p := fs.cwd.value; var d := At(fs.root, p); var d' := At(r.value.root, p);
      && d'.Dir? && d'.name == d.name && d'.subdirs == d.subdirs
      && d'.files == d.files + [File(name, "")]
    ensures r.Ok? ==> Count(r.value.root) == Count(fs.root) + 1
    ensures r.Ok? ==> forall q :: ValidPath(fs.root, q) && !(q <= fs.cwd.value) ==>
      ValidPath(r.value.root, q) && At(r.value.root, q) == At(fs.root, q)
    ensures r.Ok? ==> forall q :: ValidPath(fs.root, q) && q < fs.cwd.value ==>
      ValidPath(r.value.root, q) && SameShell(At(fs.root, q), At(r.value.root, q))
  {
    match CwdDir(fs)
    case None => Crash
    case Some(p) =>
      var d := At(fs.root, p);
      Ok(WithCwd(fs, p, d.(files := d.files + [File(name, "")])))
  }

  /** echo: overwrites the content of the first file of `files` named
      `name`, or appends a new file with that content when there is none.
      Directories, and files sitting in `subdirectories`, are not looked at. */
  function Echo(fs: FileSystem, name: string, content: string): (r: CmdResult<FileSystem>)
    requires Valid(fs)
    ensures !r.NotFound?
    ensures r.Crash? <==> CwdDir(fs).None?
    ensures r.Ok? ==> Valid(r.value) && r.value.cwd == fs.cwd
    ensures r.Ok? ==>
      var p := fs.cwd.value; var d := At(fs.root, p); var d' := At(r.value.root, p);
      && d'.Dir? && d'.name == d.name && d'.subdirs == d.subdirs
      && ((exists i :: 0 <= i < |d.files| && d.files[i].name == name) ==>
            && |d'.files| == |d.files|
            && exists k :: FirstFileAt(d.files, name, k) && d'.files == d.files[k := File(name, content)])
      && ((forall i :: 0 <= i < |d.files| ==> d.files[i].name != name) ==>
            d'.files == d.files + [File(name, content)])
    ensures r.Ok? ==> forall q :: ValidPath(fs.root, q) && !(q <= fs.cwd.value) ==>
      ValidPath(r.value.root, q) && At(r.value.root, q) == At(fs.root, q)
    ensures r.Ok? ==> forall q :: ValidPath(fs.root, q) && q < fs.cwd.value ==>
      ValidPath(r.value.root, q) && SameShell(At(fs.root, q), At(r.value.root, q))
  {
    match CwdDir(fs)
    case None => Crash
    case Some(p) =>
      var d := At(fs.root, p);
      var fns := FileNodes(d.files);
      match FirstNamed(fns, name)
      case Some(k) =>
        assert fns[k] == FileNode(d.files[k]);
        assert FirstFileAt(d.files, name, k) by {
          forall j | 0 <= j < k ensures d.files[j].name != name {
            assert fns[j] == FileNode(d.files[j]);
          }
        }
        Ok(WithCwd(fs, p, d.(files := d.files[k := File(name, content)])))
      case None =>
        assert forall i :: 0 <= i < |d.files| ==> d.files[i].name != name by {
          forall i | 0 <= i < |d.files| ensures d.files[i].name != name {
            assert fns[i] == FileNode(d.files[i]);
          }
        }
        Ok(WithCwd(fs, p, d.(files := d.files + [File(name, content)])))
  }

  /** `k` is the position of the first file of `fs` named `name`. */
  predicate FirstFileAt(fs: seq<File>, name: string, k: int) {
    0 <= k < |fs| && fs[k].name == name && forall j :: 0 <= j < k ==> fs[j].name != name
  }

  /** The first file of `fs` named `name` exists and holds `content`. */
  predicate FirstHolds(fs: seq<File>, name: string, content: string) {
    exists k :: 0 <= k < |fs| && FirstFileAt(fs, name, k) && fs[k] == File(name, content)
  }

  lemma FirstFileUnique(fs: seq<File>, name: string, k1: int, k2: int)
    requires FirstFileAt(fs, name, k1) && FirstFileAt(fs, name, k2)
    ensures k1 == k2
  {
  }

  /** After echo, the first file of the current directory named `name`
      holds `content`. */
  lemma EchoSets(fs: FileSystem, name: string, content: string)
    requires Valid(fs) && Echo(fs, name, content).Ok?
    ensures FirstHolds(At(Echo(fs, name, content).value.root, fs.cwd.value).files, name, content)
  {
    var p := fs.cwd.value;
    var d := At(fs.root, p);
    var d1 := At(Echo(fs, name, content).value.root, p);
    if forall i :: 0 <= i < |d.files| ==> d.files[i].name != name {
      assert FirstFileAt(d1.files, name, |d.files|) && d1.files[|d.files|] == File(name, content);
      assert FirstHolds(d1.files, name, content);
    } else {
      var k :| FirstFileAt(d.files, name, k) && d1.files == d.files[k := File(name, content)];
      assert FirstFileAt(d1.files, name, k) && d1.files[k] == File(name, content);
      assert FirstHolds(d1.files, name, content);
    }
  }

  /** Running echo a second time with the same arguments changes nothing:
      afterwards the first file named `name` already holds `content`. */
  lemma EchoIdempotent(fs: FileSystem, name: string, content: string)
    requires Valid(fs)
    ensures Echo(fs, name, content).Ok? ==> Echo(Echo(fs, name, content).value, name, content) == Echo(fs, name, content)
  {
    var r := Echo(fs, name, content);
    if r.Ok? {
      var p := fs.cwd.value;
      var fs1 := r.value;
      var d1 := At(fs1.root, p);
      EchoSets(fs, name, content);
      assert FirstHolds(d1.files, name, content);
      var k :| 0 <= k < |d1.files| && FirstFileAt(d1.files, name, k) && d1.files[k] == File(name, content);
      assert d1.files[k := File(name, content)] == d1.files;
      assert CwdDir(fs1) == Some(p);
      var r2 := Echo(fs1, name, content);
      var k2 :| FirstFileAt(d1.files, name, k2) && At(r2.value.root, p).files == d1.files[k2 := File(name, content)];
      FirstFileUnique(d1.files, name, k, k2);
      assert At(r2.value.root, p) == d1;
      ReplaceSame(fs1.root, p);
    }
  }

  /** cd: "/" selects the root; any other argument is resolved by bare name
      with find_directory, and a None answer leaves no current directory. */
  function Cd(fs: FileSystem, path: string): (r: CmdResult<FileSystem>)
    requires Valid(fs)
    ensures !r.NotFound?
    ensures r.Ok? ==> Valid(r.value) && r.value.root == fs.root
    ensures path == RootName ==> r == Ok(fs.(cwd := Some([])))
    ensures r.Crash? <==> path != RootName && FindDirectory(fs.root, path).Raises?
    ensures r.Ok? && r.value.cwd.Some? ==> At(fs.root, r.value.cwd.value).Name() == path
    ensures r.Ok? && r.value.cwd.Some? ==>
      exists k ::
        && 0 <= k < |PreOrder(fs.root)|
        && PreOrder(fs.root)[k] == r.value.cwd.value
        && forall j :: 0 <= j < k ==> Passes(At(fs.root, PreOrder(fs.root)[j]), path)
    ensures r.Ok? ==> (r.value.cwd.None? <==> forall q :: ValidPath(fs.root, q) ==> Passes(At(fs.root, q), path))
  {
    FindDirectoryNone(fs.root, path);
    if path == RootName then
      assert !Passes(At(fs.root, []), path);
      assert PreOrder(fs.root)[0] == [];
      Ok(fs.(cwd := Some([])))
    else
      match FindDirectory(fs.root, path)
      case Found(p) =>
        FindDirectoryFirstMatch(fs.root, path);
        Ok(fs.(cwd := Some(p)))
      case Absent => Ok(fs.(cwd := None))
      case Raises => Crash
  }

  datatype Kind = FileKind | DirectoryKind

  /** One line ls prints: "File: name" or "Directory: name". */
  datatype Line = Line(kind: Kind, name: string)

  /** ls: every entry of `files`, tagged File, then every entry of
      `subdirectories`, tagged Directory whatever its kind; no recursion. */
  function Ls(fs: FileSystem): (r: CmdResult<seq<Line>>)
    requires Valid(fs)
    ensures !r.NotFound?
    ensures r.Crash? <==> CwdDir(fs).None?
    ensures r.Ok? ==>
      var d := At(fs.root, fs.cwd.value);
      && |r.value| == |d.files| + |d.subdirs|
      && (forall i :: 0 <= i < |d.files| ==> r.value[i] == Line(FileKind, d.files[i].name))
      && (forall j :: 0 <= j < |d.subdirs| ==> r.value[|d.files| + j] == Line(DirectoryKind, d.subdirs[j].Name()))
  {
    match CwdDir(fs)
    case None => Crash
    case Some(p) =>
      var d := At(fs.root, p);
      Ok(seq(|d.files|, i requires 0 <= i < |d.files| => Line(FileKind, d.files[i].name)) +
         seq(|d.subdirs|, j requires 0 <= j < |d.subdirs| => Line(DirectoryKind, d.subdirs[j].Name())))
  }

  /** A command that creates an entry in the current directory. */
  datatype Create = MkdirCmd(name: string) | TouchCmd(name: string)

  /** Runs one command. */
  function RunOne(fs: FileSystem, c: Create): (r: CmdResult<FileSystem>)
    requires Valid(fs)
    ensures r.Ok? ==> Valid(r.value)
  {
    match c
    case MkdirCmd(n) => Mkdir(fs, n)
    case TouchCmd(n) => Touch(fs, n)
  }

  /** Runs the commands in order; the first crash ends the run. */
  function RunCreates(fs: FileSystem, cs: seq<Create>): (r: CmdResult<FileSystem>)
    requires Valid(fs)
    ensures r.Ok? ==> Valid(r.value)
    decreases |cs|
  {
    if cs == [] then Ok(fs)
    else match RunCreates(fs, cs[..|cs| - 1])
      case Ok(fs1) => RunOne(fs1, cs[|cs| - 1])
      case NotFound => NotFound
      case Crash => Crash
  }

  /** The file a command adds to the current directory, if any. */
  function FilesOf(c: Create): seq<File> {
    if c.TouchCmd? then [File(c.name, "")] else []
  }

  /** The directory a command adds to the current directory, if any. */
  function DirsOf(c: Create): seq<Node> {
    if c.MkdirCmd? then [EmptyDir(c.name)] else []
  }

  /** Names given to touch, in order. */
  function Touched(cs: seq<Create>): (ns: seq<string>)
  {
    if cs == [] then []
    else Touched(cs[..|cs| - 1]) + (if cs[|cs| - 1].TouchCmd? then [cs[|cs| - 1].name] else [])
  }

  /** Names given to mkdir, in order. */
  function Made(cs: seq<Create>): (ns: seq<string>)
  {
    if cs == [] then []
    else Made(cs[..|cs| - 1]) + (if cs[|cs| - 1].MkdirCmd? then [cs[|cs| - 1].name] else [])
  }

  function NewFiles(ns: seq<string>): (r: seq<File>)
    ensures |r| == |ns| && forall i :: 0 <= i < |ns| ==> r[i] == File(ns[i], "")
  {
    seq(|ns|, i requires 0 <= i < |ns| => File(ns[i], ""))
  }

  function NewDirs(ns: seq<string>): (r: seq<Node>)
    ensures |r| == |ns| && forall i :: 0 <= i < |ns| ==> r[i] == EmptyDir(ns[i])
  {
    seq(|ns|, i requires 0 <= i < |ns| => EmptyDir(ns[i]))
  }

  /** One command on a current directory that is a directory: it succeeds,
      keeps the current directory, and appends what it creates. */
  lemma RunOneAppends(fs: FileSystem, c: Create)
    requires Valid(fs) && CwdDir(fs).Some?
    ensures RunOne(fs, c).Ok?
    ensures var fs' := RunOne(fs, c).value; var p := fs.cwd.value;
      && fs'.cwd == fs.cwd && ValidPath(fs'.root, p)
      && At(fs'.root, p).Dir? && At(fs'.root, p).name == At(fs.root, p).name
      && At(fs'.root, p).files == At(fs.root, p).files + FilesOf(c)
      && At(fs'.root, p).subdirs == At(fs.root, p).subdirs + DirsOf(c)
  {
    var d := At(fs.root, fs.cwd.value);
    if c.MkdirCmd? {
      assert d.files + FilesOf(c) == d.files;
    } else {
      assert d.subdirs + DirsOf(c) == d.subdirs;
    }
  }

  /** The entries one more command adds extend those of the run before it. */
  lemma CreatedSnoc(cs: seq<Create>)
    requires cs != []
    ensures NewFiles(Touched(cs)) == NewFiles(Touched(cs[..|cs| - 1])) + FilesOf(cs[|cs| - 1])
    ensures NewDirs(Made(cs)) == NewDirs(Made(cs[..|cs| - 1])) + DirsOf(cs[|cs| - 1])
  {
    var init := cs[..|cs| - 1];
    var c := cs[|cs| - 1];
    var touched := if c.TouchCmd? then [c.name] else [];
    var made := if c.MkdirCmd? then [c.name] else [];
    assert Touched(cs) == Touched(init) + touched;
    assert Made(cs) == Made(init) + made;
    NewFilesConcat(Touched(init), touched);
    NewDirsConcat(Made(init), made);
    assert NewFiles(touched) == FilesOf(c);
    assert NewDirs(made) == DirsOf(c);
  }

  lemma NewFilesConcat(a: seq<string>, b: seq<string>)
    ensures NewFiles(a + b) == NewFiles(a) + NewFiles(b)
  {
    assert forall i :: 0 <= i < |a + b| ==> NewFiles(a + b)[i] == (NewFiles(a) + NewFiles(b))[i];
  }

  lemma NewDirsConcat(a: seq<string>, b: seq<string>)
    ensures NewDirs(a + b) == NewDirs(a) + NewDirs(b)
  {
    assert forall i :: 0 <= i < |a + b| ==> NewDirs(a + b)[i] == (NewDirs(a) + NewDirs(b))[i];
  }

  /** From a current directory that is a directory, a run of mkdir and touch
      commands never crashes, keeps the current directory, and leaves it
      holding its old files followed by the touched ones, and its old
      subdirectories followed by the made ones, each in command order. */
  lemma {:induction false} CreatesAppend(fs: FileSystem, cs: seq<Create>)
    requires Valid(fs) && CwdDir(fs).Some?
    ensures RunCreates(fs, cs).Ok?
    ensures var fs' := RunCreates(fs, cs).value; var p := fs.cwd.value;
      && fs'.cwd == fs.cwd && ValidPath(fs'.root, p)
      && At(fs'.root, p).Dir? && At(fs'.root, p).name == At(fs.root, p).name
      && At(fs'.root, p).files == At(fs.root, p).files + NewFiles(Touched(cs))
      && At(fs'.root, p).subdirs == At(fs.root, p).subdirs + NewDirs(Made(cs))
    decreases |cs|
  {
    var p := fs.cwd.value;
    var d := At(fs.root, p);
    if cs == [] {
      assert d.files + NewFiles([]) == d.files;
      assert d.subdirs + NewDirs([]) == d.subdirs;
    } else {
      var init := cs[..|cs| - 1];
      var c := cs[|cs| - 1];
      CreatesAppend(fs, init);
      var fs1 := RunCreates(fs, init).value;
      assert CwdDir(fs1) == Some(p);
      RunOneAppends(fs1, c);
      CreatedSnoc(cs);
      assert d.files + NewFiles(Touched(init)) + FilesOf(c) == d.files + (NewFiles(Touched(init)) + FilesOf(c));
      assert d.subdirs + NewDirs(Made(init)) + DirsOf(c) == d.subdirs + (NewDirs(Made(init)) + DirsOf(c));
    }
  }

  /** `out` lists the names `ts` tagged File, then the names `ms` tagged
      Directory, each in order. */
  predicate Listing(out: seq<Line>, ts: seq<string>, ms: seq<string>) {
    && |out| == |ts| + |ms|
    && (forall i :: 0 <= i < |ts| ==> out[i] == Line(FileKind, ts[i]))
    && (forall j :: 0 <= j < |ms| ==> out[|ts| + j] == Line(DirectoryKind, ms[j]))
  }

  /** The listing of the names `ts` as files, then `ms` as directories. */
  function Listed(ts: seq<string>, ms: seq<string>): (out: seq<Line>)
    ensures Listing(out, ts, ms)
  {
    seq(|ts|, i requires 0 <= i < |ts| => Line(FileKind, ts[i])) +
    seq(|ms|, j requires 0 <= j < |ms| => Line(DirectoryKind, ms[j]))
  }

  /** `Listing` determines the output completely. */
  lemma ListingUnique(a: seq<Line>, b: seq<Line>, ts: seq<string>, ms: seq<string>)
    requires Listing(a, ts, ms) && Listing(b, ts, ms)
    ensures a == b
  {
    forall k | 0 <= k < |a| ensures a[k] == b[k] {
      if k >= |ts| {
        var j := k - |ts|;
        assert a[|ts| + j] == Line(DirectoryKind, ms[j]) == b[|ts| + j];
      }
    }
  }

  /** ls in a directory holding just-created files and directories lists
      their names. */
  lemma LsCreated(fs: FileSystem, ts: seq<string>, ms: seq<string>)
    requires Valid(fs) && CwdDir(fs).Some?
    requires At(fs.root, fs.cwd.value).files == NewFiles(ts)
    requires At(fs.root, fs.cwd.value).subdirs == NewDirs(ms)
    ensures Ls(fs).Ok? && Listing(Ls(fs).value, ts, ms)
  {
  }

  /** Starting from an empty current directory, ls after a run of mkdir and
      touch lists exactly the touched files in order, then exactly the made
      directories in order. */
  lemma CreatesThenLs(fs: FileSystem, cs: seq<Create>)
    requires Valid(fs) && CwdDir(fs).Some?
    requires At(fs.root, fs.cwd.value).files == [] && At(fs.root, fs.cwd.value).subdirs == []
    ensures RunCreates(fs, cs).Ok?
    ensures Ls(RunCreates(fs, cs).value) == Ok(Listed(Touched(cs), Made(cs)))
  {
    CreatesAppend(fs, cs);
    var fs' := RunCreates(fs, cs).value;
    assert CwdDir(fs') == fs.cwd;
    assert [] + NewFiles(Touched(cs)) == NewFiles(Touched(cs));
    assert [] + NewDirs(Made(cs)) == NewDirs(Made(cs));
    LsCreated(fs', Touched(cs), Made(cs));
    ListingUnique(Ls(fs').value, Listed(Touched(cs), Made(cs)), Touched(cs), Made(cs));
  }
}

=== FILE: pathops.dfy ===
/** mv, cp and rm. Each splits its path argument(s) with os.path.split,
    resolves the head with the bare-name find_directory, and takes the first
    entry of that directory's `files + subdirectories` whose name is the
    leaf. */
module PathOps {
  import opened Wrappers
  import opened Tree
  import opened Resolver
  import opened Namespace
  import opened PathSplit

  /** The directory the head of a split path names: find_directory's answer
      when that answer is a directory object. None stands for both a None
      answer and a file, on which the commands raise an AttributeError. */
  function ParentDir(root: Node, head: string): (r: Option<Path>)
    ensures r.Some? ==> ValidPath(root, r.value) && At(root, r.value).Dir? && At(root, r.value).Name() == head
    ensures r.Some? <==> FindDirectory(root, head).Found? && At(root, FindDirectory(root, head).path).Dir?
    ensures r.Some? ==> r.value == FindDirectory(root, head).path
  {
    match FindDirectory(root, head)
    case Found(p) => if At(root, p).Dir? then Some(p) else None
    case _ => None
  }

  /** A source entry: the path of its parent directory and its position in
      that directory's `files + subdirectories`. */
  datatype Source = Source(parent: Path, index: nat)

  /** The entry named by `path`. Crash when the head does not name a
      directory; NotFound when that directory has no entry named by the
      leaf; otherwise the first such entry. */
  function LocateSource(root: Node, path: string): (r: CmdResult<Source>)
    ensures r.Crash? <==> ParentDir(root, Split(path).0).None?
    ensures r.NotFound? <==>
      && ParentDir(root, Split(path).0).Some?
      && forall e :: e in Entries(At(root, ParentDir(root, Split(path).0).value)) ==> e.Name() != Split(path).1
    ensures r.Ok? ==>
      && ParentDir(root, Split(path).0) == Some(r.value.parent)
      && var es := Entries(At(root, r.value.parent));
      && r.value.index < |es|
      && es[r.value.index].Name() == Split(path).1
      && forall j :: 0 <= j < r.value.index ==> es[j].Name() != Split(path).1
  {
    var (head, leaf) := Split(path);
    match ParentDir(root, head)
    case None => Crash
    case Some(sp) =>
      var es := Entries(At(root, sp));
      match FirstNamed(es, leaf)
      case None => NotFound
      case Some(k) => Ok(Source(sp, k))
  }

  function ShiftCwd(cwd: Option<Path>, s: Source, nf: nat): Option<Path> {
    match cwd
    case Some(c) => Some(Shift(c, s.parent, s.index, nf))
    case None => None
  }

  /** `after` is `before` seen after a mutation below it: same kind, same
      name. */
  predicate SameKindAndName(before: Node, after: Node) {
    before.Dir? == after.Dir? && before.Name() == after.Name()
  }

  /** rm is defined for the states in which the current directory is not
      the removed entry or inside it (the source would leave it pointing
      into a detached subtree). */
  predicate RmDefined(fs: FileSystem, path: string)
    requires Valid(fs)
  {
    match LocateSource(fs.root, path)
    case Ok(s) => fs.cwd.Some? ==> !Inside(fs.cwd.value, s.parent, s.index, |At(fs.root, s.parent).files|)
    case _ => true
  }

  /** A located source entry: a position in the entries of a directory. */
  predicate Located(root: Node, s: Source) {
    ValidPath(root, s.parent) && At(root, s.parent).Dir? && s.index < |Entries(At(root, s.parent))|
  }

  /** What rm leaves when it removes the entry at `s`: a valid state whose
      source directory keeps its name and lists the other entries in their
      order, each in the list that held it; the removed subtree's nodes
      gone; the current directory the same object at its shifted path; the
      source directory's ancestors with their names, files and number of
      subdirectories; and every node outside the source directory and the
      removed entry as it was, at its shifted path. */
  ghost predicate Removed(fs: FileSystem, s: Source, fs': FileSystem)
    requires Valid(fs) && Located(fs.root, s)
  {
    var sp := s.parent; var k := s.index;
    var es := Entries(At(fs.root, sp)); var nf := |At(fs.root, sp).files|;
    && Valid(fs')
    && ValidPath(fs'.root, sp) && Without(At(fs.root, sp), k, At(fs'.root, sp))
    && Entries(At(fs'.root, sp)) == es[..k] + es[k + 1..]
    && Count(fs'.root) + Count(es[k]) == Count(fs.root)
    && fs'.cwd == ShiftCwd(fs.cwd, s, nf)
    && (fs.cwd.Some? ==> ValidPath(fs'.root, fs'.cwd.value) && SameKindAndName(At(fs.root, fs.cwd.value), At(fs'.root, fs'.cwd.value)))
    && (forall q :: ValidPath(fs.root, q) && q < sp ==> ValidPath(fs'.root, q) && SameShell(At(fs.root, q), At(fs'.root, q)))
    && forall q :: ValidPath(fs.root, q) && !Inside(q, sp, k, nf) && !(q <= sp) ==>
         ValidPath(fs'.root, Shift(q, sp, k, nf)) && At(fs'.root, Shift(q, sp, k, nf)) == At(fs.root, q)
  }

  /** rm: removes exactly the first entry of the parent directory named by
      the leaf, together with everything below it. */
  function Rm(fs: FileSystem, path: string): (r: CmdResult<FileSystem>)
    requires Valid(fs) && RmDefined(fs, path)
    ensures r.Crash? <==> LocateSource(fs.root, path).Crash?
    ensures r.NotFound? <==> LocateSource(fs.root, path).NotFound?
    ensures r.Ok? ==> Removed(fs, LocateSource(fs.root, path).value, r.value)
  {
    match LocateSource(fs.root, path)
    case Crash => Crash
    case NotFound => NotFound
    case Ok(s) => Ok(Remove(fs, s))
  }

  /** The state after rm found its entry at `s`. */
  function Remove(fs: FileSystem, s: Source): (r: FileSystem)
    requires Valid(fs) && Located(fs.root, s)
    requires fs.cwd.Some? ==> !Inside(fs.cwd.value, s.parent, s.index, |At(fs.root, s.parent).files|)
    ensures Removed(fs, s, r)
  {
    var sp := s.parent;
    var nf := |At(fs.root, sp).files|;
    var root' := Detach(fs.root, sp, s.index);
    DetachKeeps(fs.root, sp, s.index, []);
    var cwd' := ShiftCwd(fs.cwd, s, nf);
    assert fs.cwd.Some? ==> ValidPath(root', cwd'.value) && SameKindAndName(At(fs.root, fs.cwd.value), At(root', cwd'.value)) by {
      if fs.cwd.Some? {
        DetachKeeps(fs.root, sp, s.index, fs.cwd.value);
      }
    }
    assert forall q :: ValidPath(fs.root, q) && q < sp ==> ValidPath(root', q) && SameShell(At(fs.root, q), At(root', q)) by {
      forall q | ValidPath(fs.root, q) && q < sp
        ensures ValidPath(root', q) && SameShell(At(fs.root, q), At(root', q))
      {
        DetachKeeps(fs.root, sp, s.index, q);
      }
    }
    assert forall q :: ValidPath(fs.root, q) && !Inside(q, sp, s.index, nf) && !(q <= sp) ==>
         ValidPath(root', Shift(q, sp, s.index, nf)) && At(root', Shift(q, sp, s.index, nf)) == At(fs.root, q) by {
      forall q | ValidPath(fs.root, q) && !Inside(q, sp, s.index, nf) && !(q <= sp)
        ensures ValidPath(root', Shift(q, sp, s.index, nf)) && At(root', Shift(q, sp, s.index, nf)) == At(fs.root, q)
      {
        DetachKeeps(fs.root, sp, s.index, q);
      }
    }
    FileSystem(root', cwd')
  }

  /** The node mv appends: a directory takes the destination's leaf name,
      a file keeps its own name. */
  function Renamed(e: Node, leaf: string): (r: Node)
    ensures r.Name() == (if e.Dir? then leaf else e.Name())
    ensures e.Dir? ==> r.Dir? && r.files == e.files && r.subdirs == e.subdirs
    ensures e.FileNode? ==> r == e
    ensures Count(r) == Count(e)
  {
    if e.Dir? then e.(name := leaf) else e
  }

  /** When the destination head names a directory, mv is defined for the
      states in which neither the current directory nor that directory is
      the moved entry or inside it (the source would leave the former
      pointing into a relocated subtree, and make the latter a cycle). When
      it does not, the command raises and nothing is excluded. */
  predicate MvDefined(fs: FileSystem, src: string, dst: string)
    requires Valid(fs)
  {
    match LocateSource(fs.root, src)
    case Ok(s) =>
      var nf := |At(fs.root, s.parent).files|;
      var dp := ParentDir(fs.root, Split(dst).0);
      dp.Some? ==>
        && (fs.cwd.Some? ==> !Inside(fs.cwd.value, s.parent, s.index, nf))
        && !Inside(dp.value, s.parent, s.index, nf)
    case _ => true
  }

  /** mv: takes the entry out of the source directory's lists and appends it
      to the destination directory's `subdirectories`, whatever its kind.
      Both heads are resolved before anything else, so a destination head
      that makes find_directory raise fails the command even when the source
      entry is missing; a destination that resolves to None or to a file
      raises only after the source entry was found. */
  function Mv(fs: FileSystem, src: string, dst: string): (r: CmdResult<FileSystem>)
    requires Valid(fs) && MvDefined(fs, src, dst)
    ensures r.NotFound? <==> !FindDirectory(fs.root, Split(dst).0).Raises? && LocateSource(fs.root, src).NotFound?
    ensures r.Ok? <==> LocateSource(fs.root, src).Ok? && ParentDir(fs.root, Split(dst).0).Some?
    ensures r.Ok? ==>
      && Movable(fs.root, LocateSource(fs.root, src).value, ParentDir(fs.root, Split(dst).0).value)
      && Moved(fs, LocateSource(fs.root, src).value, ParentDir(fs.root, Split(dst).0).value, Split(dst).1, r.value)
  {
    var (dh, dl) := Split(dst);
    if FindDirectory(fs.root, dh).Raises? then Crash
    else match LocateSource(fs.root, src)
      case Crash => Crash
      case NotFound => NotFound
      case Ok(s) =>
        match ParentDir(fs.root, dh)
        case None => Crash
        case Some(dp) => Ok(Move(fs, s, dp, dl))
  }

  /** What mv leaves when it moves the entry at `s` into the directory at
      `dp` under the name `leaf`. The state is valid and has as many nodes
      as before. The source directory keeps its name, and its lists lose
      that entry; a subdirectory leading to the destination may change.
      The destination directory, at its path after the removal, keeps its
      name and files. Its subdirectories are the old ones, then the moved
      entry; a subdirectory leading back to the source directory may change.
      When the destination is the source directory, the old lists are those
      without the entry. Every other node not inside the entry keeps its
      kind and name at its shifted path. A directory among them also keeps
      its files and number of subdirectories. The current directory is the
      same object at its shifted path. Every node off the ancestries of
      both places is as it was. */
  ghost predicate Moved(fs: FileSystem, s: Source, dp: Path, leaf: string, fs': FileSystem)
    requires Valid(fs) && Movable(fs.root, s, dp)
  {
    var sp := s.parent; var k := s.index;
    var d := At(fs.root, sp); var es := Entries(d); var nf := |d.files|;
    var rest := RemoveEntry(d, k);
    var moved := Renamed(es[k], leaf);
    var dp' := Shift(dp, sp, k, nf);
    var base := if dp' == sp then rest else At(fs.root, dp);
    && Valid(fs') && Count(fs'.root) == Count(fs.root)
    && ValidPath(fs'.root, sp) && At(fs'.root, sp).Dir? && At(fs'.root, sp).name == d.name
    && At(fs'.root, sp).files == rest.files
    && |At(fs'.root, sp).subdirs| == |rest.subdirs| + (if dp' == sp then 1 else 0)
    && (forall i :: 0 <= i < |rest.subdirs| && !(sp + [i] <= dp') ==> At(fs'.root, sp).subdirs[i] == rest.subdirs[i])
    && ValidPath(fs'.root, dp') && At(fs'.root, dp').Dir? && At(fs'.root, dp').name == base.name
    && At(fs'.root, dp').files == base.files
    && |At(fs'.root, dp').subdirs| == |base.subdirs| + 1
    && At(fs'.root, dp').subdirs[|base.subdirs|] == moved
    && (forall i :: 0 <= i < |base.subdirs| && !(dp' + [i] <= sp) ==> At(fs'.root, dp').subdirs[i] == base.subdirs[i])
    && fs'.cwd == ShiftCwd(fs.cwd, s, nf)
    && (fs.cwd.Some? ==> ValidPath(fs'.root, fs'.cwd.value) && SameKindAndName(At(fs.root, fs.cwd.value), At(fs'.root, fs'.cwd.value)))
    && (forall q :: ValidPath(fs.root, q) && !Inside(q, sp, k, nf) && q != sp ==>
         && ValidPath(fs'.root, Shift(q, sp, k, nf))
         && SameKindAndName(At(fs.root, q), At(fs'.root, Shift(q, sp, k, nf)))
         && (At(fs.root, q).Dir? && Shift(q, sp, k, nf) != dp' ==> SameShell(At(fs.root, q), At(fs'.root, Shift(q, sp, k, nf)))))
    && forall q :: ValidPath(fs.root, q) && !Inside(q, sp, k, nf) && !(q <= sp) && !(Shift(q, sp, k, nf) <= dp') ==>
         ValidPath(fs'.root, Shift(q, sp, k, nf)) && At(fs'.root, Shift(q, sp, k, nf)) == At(fs.root, q)
  }

  /** The state after mv found its entry at `s` and its destination
      directory at `dp`. */
  function Move(fs: FileSystem, s: Source, dp: Path, leaf: string): (r: FileSystem)
    requires Valid(fs) && Movable(fs.root, s, dp)
    requires fs.cwd.Some? ==> !Inside(fs.cwd.value, s.parent, s.index, |At(fs.root, s.parent).files|)
    ensures Moved(fs, s, dp, leaf, r)
  {
    var sp := s.parent;
    var k := s.index;
    var nf := |At(fs.root, sp).files|;
    var root' := MoveTree(fs.root, s, dp, leaf);
    MoveTreeDest(fs.root, s, dp, leaf);
    MoveTreeSource(fs.root, s, dp, leaf);
    MoveTreeFrame(fs.root, s, dp, leaf);
    DetachKeeps(fs.root, sp, k, []);
    assert fs.cwd.Some? ==>
             && ValidPath(root', Shift(fs.cwd.value, sp, k, nf))
             && SameKindAndName(At(fs.root, fs.cwd.value), At(root', Shift(fs.cwd.value, sp, k, nf))) by {
      if fs.cwd.Some? {
        MoveTreeKeeps(fs.root, s, dp, leaf, fs.cwd.value);
      }
    }
    FileSystem(root', ShiftCwd(fs.cwd, s, nf))
  }

  /** The movable entries: a source entry and a destination directory that
      is not inside it. */
  predicate Movable(root: Node, s: Source, dp: Path) {
    && Located(root, s)
    && ValidPath(root, dp) && At(root, dp).Dir?
    && !Inside(dp, s.parent, s.index, |At(root, s.parent).files|)
  }

  /** The tree mv leaves: the entry detached from its parent, renamed if it
      is a directory, and appended to the destination directory, whose path
      shifts if it followed the entry in the same `subdirs` list. */
  function MoveTree(root: Node, s: Source, dp: Path, leaf: string): (r: Node)
    requires Movable(root, s, dp)
    ensures Count(r) == Count(root)
  {
    var nf := |At(root, s.parent).files|;
    var moved := Renamed(Entries(At(root, s.parent))[s.index], leaf);
    DetachKeeps(root, s.parent, s.index, dp);
    Attach(Detach(root, s.parent, s.index), Shift(dp, s.parent, s.index, nf), moved)
  }

  /** The destination after the move: its old name, files and subdirectories
      (those of the source directory without the entry, when it is the
      source directory), followed by the moved entry. Only a subdirectory
      leading to the source directory may differ. */
  lemma MoveTreeDest(root: Node, s: Source, dp: Path, leaf: string)
    requires Movable(root, s, dp)
    ensures var r := MoveTree(root, s, dp, leaf);
      var sp := s.parent; var k := s.index; var d := At(root, sp);
      var dp' := Shift(dp, sp, k, |d.files|);
      var base := if dp' == sp then RemoveEntry(d, k) else At(root, dp);
      && ValidPath(r, dp') && At(r, dp').Dir? && At(r, dp').name == base.name
      && At(r, dp').files == base.files
      && |At(r, dp').subdirs| == |base.subdirs| + 1
      && At(r, dp').subdirs[|base.subdirs|] == Renamed(Entries(d)[k], leaf)
      && forall i :: 0 <= i < |base.subdirs| && !(dp' + [i] <= sp) ==> At(r, dp').subdirs[i] == base.subdirs[i]
  {
    var sp := s.parent;
    var k := s.index;
    var nf := |At(root, sp).files|;
    var dp' := Shift(dp, sp, k, nf);
    var det := Detach(root, sp, k);
    DetachKeeps(root, sp, k, dp);
    if dp < sp {
      forall i | 0 <= i < |At(root, dp).subdirs| && !(dp + [i] <= sp)
        ensures At(det, dp).subdirs[i] == At(root, dp).subdirs[i]
      {
        AtChild(root, dp, i);
        AtChild(det, dp, i);
        assert |dp + [i]| <= |sp|;
        DetachKeeps(root, sp, k, dp + [i]);
      }
    }
  }

  /** The source directory after the move: its name, and the lists without
      the entry, followed by the moved entry when it is also the
      destination. Only a subdirectory leading to the destination may
      differ. */
  lemma MoveTreeSource(root: Node, s: Source, dp: Path, leaf: string)
    requires Movable(root, s, dp)
    ensures var r := MoveTree(root, s, dp, leaf);
      var sp := s.parent; var k := s.index; var d := At(root, sp);
      var rest := RemoveEntry(d, k);
      var dp' := Shift(dp, sp, k, |d.files|);
      && ValidPath(r, sp) && At(r, sp).Dir? && At(r, sp).name == d.name
      && At(r, sp).files == rest.files
      && |At(r, sp).subdirs| == |rest.subdirs| + (if dp' == sp then 1 else 0)
      && forall i :: 0 <= i < |rest.subdirs| && !(sp + [i] <= dp') ==> At(r, sp).subdirs[i] == rest.subdirs[i]
  {
    var sp := s.parent;
    var k := s.index;
    var nf := |At(root, sp).files|;
    var dp' := Shift(dp, sp, k, nf);
    var det := Detach(root, sp, k);
    var r := MoveTree(root, s, dp, leaf);
    DetachKeeps(root, sp, k, dp);
    assert r == Attach(det, dp', Renamed(Entries(At(root, sp))[k], leaf));
    if sp < dp' {
      AttachAbove(det, dp', Renamed(Entries(At(root, sp))[k], leaf), sp);
    } else if sp == dp' {
      assert At(r, sp) == AddSubdir(At(det, sp), Renamed(Entries(At(root, sp))[k], leaf));
    } else {
      assert At(r, sp) == At(det, sp);
    }
  }

  /** Every node the move does not touch keeps its kind and name at its
      shifted path. A directory other than the source directory also keeps
      its files, and its number of subdirectories unless it is the
      destination. A node that is not an ancestor of the source or of the
      destination directory is unchanged. */
  lemma MoveTreeKeeps(root: Node, s: Source, dp: Path, leaf: string, q: Path)
    requires Movable(root, s, dp)
    requires ValidPath(root, q) && !Inside(q, s.parent, s.index, |At(root, s.parent).files|)
    ensures var r := MoveTree(root, s, dp, leaf);
      var nf := |At(root, s.parent).files|;
      var q' := Shift(q, s.parent, s.index, nf);
      var dp' := Shift(dp, s.parent, s.index, nf);
      && ValidPath(r, q') && SameKindAndName(At(root, q), At(r, q'))
      && (q != s.parent && At(root, q).Dir? && q' != dp' ==> SameShell(At(root, q), At(r, q')))
      && (q != s.parent && At(root, q).Dir? ==> At(r, q').files == At(root, q).files)
      && (!(q <= s.parent) && !(q' <= dp') ==> At(r, q') == At(root, q))
  {
    var sp := s.parent;
    var k := s.index;
    var nf := |At(root, sp).files|;
    var q' := Shift(q, sp, k, nf);
    var dp' := Shift(dp, sp, k, nf);
    var det := Detach(root, sp, k);
    var r := MoveTree(root, s, dp, leaf);
    DetachKeeps(root, sp, k, dp);
    DetachKeeps(root, sp, k, q);
    assert SameKindAndName(At(root, q), At(det, q'));
    assert r == Attach(det, dp', Renamed(Entries(At(root, sp))[k], leaf));
    if q' < dp' {
      assert SameShell(At(det, q'), At(r, q'));
    } else if q' == dp' {
      assert At(r, q') == AddSubdir(At(det, q'), Renamed(Entries(At(root, sp))[k], leaf));
    }
  }

  /** The two frame clauses of Moved, for every node at once. */
  lemma MoveTreeFrame(root: Node, s: Source, dp: Path, leaf: string)
    requires Movable(root, s, dp)
    ensures var r := MoveTree(root, s, dp, leaf);
      var sp := s.parent; var k := s.index; var nf := |At(root, sp).files|;
      var dp' := Shift(dp, sp, k, nf);
      && (forall q :: ValidPath(root, q) && !Inside(q, sp, k, nf) && q != sp ==>
           && ValidPath(r, Shift(q, sp, k, nf))
           && SameKindAndName(At(root, q), At(r, Shift(q, sp, k, nf)))
           && (At(root, q).Dir? && Shift(q, sp, k, nf) != dp' ==> SameShell(At(root, q), At(r, Shift(q, sp, k, nf)))))
      && forall q :: ValidPath(root, q) && !Inside(q, sp, k, nf) && !(q <= sp) && !(Shift(q, sp, k, nf) <= dp') ==>
           ValidPath(r, Shift(q, sp, k, nf)) && At(r, Shift(q, sp, k, nf)) == At(root, q)
  {
    var nf := |At(root, s.parent).files|;
    forall q | ValidPath(root, q) && !Inside(q, s.parent, s.index, nf)
      ensures ValidPath(MoveTree(root, s, dp, leaf), Shift(q, s.parent, s.index, nf))
      ensures SameKindAndName(At(root, q), At(MoveTree(root, s, dp, leaf), Shift(q, s.parent, s.index, nf)))
      ensures q != s.parent && At(root, q).Dir? && Shift(q, s.parent, s.index, nf) != Shift(dp, s.parent, s.index, nf) ==>
        SameShell(At(root, q), At(MoveTree(root, s, dp, leaf), Shift(q, s.parent, s.index, nf)))
      ensures !(q <= s.parent) && !(Shift(q, s.parent, s.index, nf) <= Shift(dp, s.parent, s.index, nf)) ==>
        At(MoveTree(root, s, dp, leaf), Shift(q, s.parent, s.index, nf)) == At(root, q)
    {
      MoveTreeKeeps(root, s, dp, leaf, q);
    }
  }

  /** When the destination head names a directory, cp is modelled for a
      file and for a directory without subdirectories: the source's
      recursive branch is not part of this model. When it does not, the
      command raises and nothing is excluded. */
  predicate CpDefined(fs: FileSystem, src: string, dst: string)
    requires Valid(fs)
  {
    match LocateSource(fs.root, src)
    case Ok(s) =>
      var e := Entries(At(fs.root, s.parent))[s.index];
      ParentDir(fs.root, Split(dst).0).Some? ==> !(e.Dir? && e.subdirs != [])
    case _ => true
  }

  /** The copy cp builds: a new file with the destination's leaf name and
      the same content, or a new directory with that name holding new files
      with the same names and contents, in the same order. */
  function Copy(e: Node, name: string): (c: Node)
    requires !(e.Dir? && e.subdirs != [])
    ensures c.Name() == name && c.Dir? == e.Dir?
    ensures e.FileNode? ==> c.file.content == e.file.content
    ensures e.Dir? ==> c.files == e.files && c.subdirs == []
    ensures Count(c) == Count(e)
  {
    match e
    case FileNode(f) => FileNode(File(name, f.content))
    case Dir(_, fs, _) =>
      Dir(name, seq(|fs|, i requires 0 <= i < |fs| => File(fs[i].name, fs[i].content)), [])
  }

  /** cp: appends a copy of the entry to the destination directory's
      `subdirectories`, whatever its kind, and leaves the source entry as it
      was, unless the destination is the copied directory itself, which then
      holds the copy. Failures are ordered as in mv. */
  function Cp(fs: FileSystem, src: string, dst: string): (r: CmdResult<FileSystem>)
    requires Valid(fs) && CpDefined(fs, src, dst)
    ensures r.NotFound? <==> !FindDirectory(fs.root, Split(dst).0).Raises? && LocateSource(fs.root, src).NotFound?
    ensures r.Ok? <==> LocateSource(fs.root, src).Ok? && ParentDir(fs.root, Split(dst).0).Some?
    ensures r.Ok? ==>
      && Copyable(fs.root, LocateSource(fs.root, src).value, ParentDir(fs.root, Split(dst).0).value)
      && Copied(fs, LocateSource(fs.root, src).value, ParentDir(fs.root, Split(dst).0).value, Split(dst).1, r.value)
  {
    var (dh, dl) := Split(dst);
    if FindDirectory(fs.root, dh).Raises? then Crash
    else match LocateSource(fs.root, src)
      case Crash => Crash
      case NotFound => NotFound
      case Ok(s) =>
        match ParentDir(fs.root, dh)
        case None => Crash
        case Some(dp) => Ok(CopyInto(fs, s, dp, dl))
  }

  /** A located source entry that cp handles, and a destination directory. */
  predicate Copyable(root: Node, s: Source, dp: Path) {
    && Located(root, s)
    && ValidPath(root, dp) && At(root, dp).Dir?
    && var e := Entries(At(root, s.parent))[s.index]; !(e.Dir? && e.subdirs != [])
  }

  /** What cp leaves when it copies the entry at `s` into the directory at
      `dp` under the name `leaf`: a valid state with the same current
      directory, as many more nodes as the entry has, the destination's
      files as they were and its subdirectories followed by the copy, the
      source entry as it was unless it is the destination itself (which then
      holds the copy), the destination's ancestors with their names, files
      and number of subdirectories, and every other node as it was. */
  ghost predicate Copied(fs: FileSystem, s: Source, dp: Path, leaf: string, fs': FileSystem)
    requires Valid(fs) && Copyable(fs.root, s, dp)
  {
    var sp := s.parent; var k := s.index;
    var es := Entries(At(fs.root, sp)); var nf := |At(fs.root, sp).files|;
    var copy := Copy(es[k], leaf);
    && Valid(fs') && fs'.cwd == fs.cwd
    && Count(fs'.root) == Count(fs.root) + Count(es[k])
    && ValidPath(fs'.root, dp) && At(fs'.root, dp).Dir? && At(fs'.root, dp).name == At(fs.root, dp).Name()
    && At(fs'.root, dp).files == At(fs.root, dp).files
    && At(fs'.root, dp).subdirs == At(fs.root, dp).subdirs + [copy]
    && ValidPath(fs'.root, sp) && At(fs'.root, sp).Dir?
    && |Entries(At(fs'.root, sp))| == |es| + (if dp == sp then 1 else 0)
    && Entries(At(fs'.root, sp))[k] == (if k >= nf && dp == sp + [k - nf] && es[k].Dir? then AddSubdir(es[k], copy) else es[k])
    && (forall q :: ValidPath(fs.root, q) ==>
         ValidPath(fs'.root, q) && (!(q <= dp) ==> At(fs'.root, q) == At(fs.root, q)))
    && forall q :: ValidPath(fs.root, q) && q < dp ==> SameShell(At(fs.root, q), At(fs'.root, q))
  }

  /** The state after cp found its entry at `s` and its destination
      directory at `dp`. */
  function CopyInto(fs: FileSystem, s: Source, dp: Path, leaf: string): (r: FileSystem)
    requires Valid(fs) && Copyable(fs.root, s, dp)
    ensures Copied(fs, s, dp, leaf, r)
  {
    var copy := Copy(Entries(At(fs.root, s.parent))[s.index], leaf);
    CopyKeepsSource(fs.root, s, dp, copy);
    FileSystem(Attach(fs.root, dp, copy), fs.cwd)
  }

  /** After the append, the source entry is as it was, unless the
      destination directory is that entry itself. */
  lemma CopyKeepsSource(root: Node, s: Source, dp: Path, copy: Node)
    requires Located(root, s)
    requires ValidPath(root, dp) && At(root, dp).Dir?
    requires var e := Entries(At(root, s.parent))[s.index]; !(e.Dir? && e.subdirs != [])
    ensures var sp := s.parent; var k := s.index;
      var es := Entries(At(root, sp)); var nf := |At(root, sp).files|;
      var r := Attach(root, dp, copy);
      && ValidPath(r, sp) && At(r, sp).Dir?
      && |Entries(At(r, sp))| == |es| + (if dp == sp then 1 else 0)
      && Entries(At(r, sp))[k] == (if k >= nf && dp == sp + [k - nf] && es[k].Dir? then AddSubdir(es[k], copy) else es[k])
  {
    if s.parent < dp {
      CopyBelowSource(root, s, dp, copy);
    }
  }

  lemma CopyBelowSource(root: Node, s: Source, dp: Path, copy: Node)
    requires Located(root, s)
    requires ValidPath(root, dp) && At(root, dp).Dir? && s.parent < dp
    requires var e := Entries(At(root, s.parent))[s.index]; !(e.Dir? && e.subdirs != [])
    ensures var sp := s.parent; var k := s.index;
      var es := Entries(At(root, sp)); var nf := |At(root, sp).files|;
      var r := Attach(root, dp, copy);
      && ValidPath(r, sp) && At(r, sp).Dir?
      && |Entries(At(r, sp))| == |es|
      && Entries(At(r, sp))[k] == (if k >= nf && dp == sp + [k - nf] && es[k].Dir? then AddSubdir(es[k], copy) else es[k])
  {
    var sp := s.parent;
    var k := s.index;
    var d := At(root, sp);
    var nf := |d.files|;
    var m := AddSubdir(At(root, dp), copy);
    var r := Attach(root, dp, copy);
    ReplaceAbove(root, dp, m, sp);
    var rest := dp[|sp|..];
    var d' := Replace(d, rest, m);
    assert At(r, sp) == d';
    ReplaceStep(d, rest, m);
    var i := rest[0];
    if k >= nf && k - nf == i {
      var e := d.subdirs[i];
      NoChildPath(e, rest[1..]);
      assert rest == [i];
      assert dp == sp + [i] by { assert dp == dp[..|sp|] + rest; }
      AtConcat(root, sp, [i]);
      assert At(d, [i]) == e by { assert [i][1..] == []; }
      assert d'.subdirs[i] == m;
      assert Entries(d')[k] == d'.subdirs[i];
    } else if k >= nf {
      assert Entries(d')[k] == d'.subdirs[k - nf];
      assert dp != sp + [k - nf] by { assert dp[|sp|] == i; }
    } else {
      assert Entries(d')[k] == FileNode(d.files[k]);
    }
  }
}

=== FILE: pathsplit.dfy ===
/** The POSIX rule of os.path.split, which mv, cp and rm use to cut a path
    into the part naming the parent directory and the leaf name. */
module PathSplit {

  const Sep: char := '/'

  predicate AllSlashes(s: string) {
    forall j :: 0 <= j < |s| ==> s[j] == Sep
  }

  /** Position just after the last separator of `p`; 0 when it has none. */
  function AfterLastSep(p: string): (i: nat)
    ensures i <= |p|
    ensures i > 0 ==> p[i - 1] == Sep
    ensures forall j :: i <= j < |p| ==> p[j] != Sep
  {
    if p == [] then 0
    else if p[|p| - 1] == Sep then |p|
    else AfterLastSep(p[..|p| - 1])
  }

  /** `s` without its trailing separators (str.rstrip). */
  function StripTrailingSeps(s: string): (r: string)
    ensures r <= s && AllSlashes(s[|r|..])
    ensures r == [] || r[|r| - 1] != Sep
  {
    if s != [] && s[|s| - 1] == Sep then StripTrailingSeps(s[..|s| - 1]) else s
  }

  /** os.path.split: the tail is what follows the last separator; the head
      is what precedes it, with its trailing separators removed unless it
      consists of separators only. */
  function Split(p: string): (r: (string, string))
    ensures IsSplit(p, r.0, r.1)
  {
    var i := AfterLastSep(p);
    var head := p[..i];
    var tail := p[i..];
    assert p[..|p| - |tail|] == head;
    if head != [] && !AllSlashes(head) then
      var h := StripTrailingSeps(head);
      assert head[|h|..] == p[..|p| - |tail|][|h|..];
      (h, tail)
    else (head, tail)
  }

  /** The relation between a path and its (head, tail), stated without the
      scan: `tail` is the separator-free end of `p` that starts right after a
      separator or at the start; `head` is everything before `tail`, unless
      that holds a non-separator, in which case its trailing separators go. */
  predicate IsSplit(p: string, head: string, tail: string) {
    && |tail| <= |p| && p[|p| - |tail|..] == tail
    && (forall j :: 0 <= j < |tail| ==> tail[j] != Sep)
    && (|tail| < |p| ==> p[|p| - |tail| - 1] == Sep)
    && var before := p[..|p| - |tail|];
       && (AllSlashes(before) ==> head == before)
       && (!AllSlashes(before) ==>
             && head <= before && AllSlashes(before[|head|..])
             && head != [] && head[|head| - 1] != Sep)
  }

  /** IsSplit pins the answer down: Split is the only pair it admits. */
  lemma SplitUnique(p: string, head: string, tail: string)
    requires IsSplit(p, head, tail)
    ensures Split(p) == (head, tail)
  {
    var (h, t) := Split(p);
    TailUnique(p, t, tail);
    var before := p[..|p| - |tail|];
    if !AllSlashes(before) {
      HeadUnique(before, h, head);
    }
  }

  lemma TailUnique(p: string, t1: string, t2: string)
    requires |t1| <= |p| && |t2| <= |p|
    requires p[|p| - |t1|..] == t1 && p[|p| - |t2|..] == t2
    requires forall j :: 0 <= j < |t1| ==> t1[j] != Sep
    requires forall j :: 0 <= j < |t2| ==> t2[j] != Sep
    requires |t1| < |p| ==> p[|p| - |t1| - 1] == Sep
    requires |t2| < |p| ==> p[|p| - |t2| - 1] == Sep
    ensures t1 == t2
  {
    forall j | |p| - |t1| <= j < |p| ensures p[j] != Sep {
      assert p[j] == p[|p| - |t1|..][j - (|p| - |t1|)];
    }
    forall j | |p| - |t2| <= j < |p| ensures p[j] != Sep {
      assert p[j] == p[|p| - |t2|..][j - (|p| - |t2|)];
    }
  }

  lemma HeadUnique(s: string, h1: string, h2: string)
    requires h1 <= s && AllSlashes(s[|h1|..]) && h1 != [] && h1[|h1| - 1] != Sep
    requires h2 <= s && AllSlashes(s[|h2|..]) && h2 != [] && h2[|h2| - 1] != Sep
    ensures h1 == h2
  {
    forall j | |h1| <= j < |s| ensures s[j] == Sep {
      assert s[j] == s[|h1|..][j - |h1|];
    }
    forall j | |h2| <= j < |s| ensures s[j] == Sep {
      assert s[j] == s[|h2|..][j - |h2|];
    }
    assert s[|h1| - 1] != Sep && s[|h2| - 1] != Sep;
  }
}

=== FILE: resolver.dfy ===
/** find_directory: a depth-first, pre-order search of the tree that compares
    each visited node's bare `name` with the query. It walks `subdirectories`
    only, so it can return a file that mv or cp put there, and it raises an
    AttributeError when it has to descend into such a file. */
module Resolver {
  import opened Tree

  /** find_directory's answer: a node, None, or an AttributeError. */
  datatype Lookup = Found(path: Path) | Absent | Raises

  function FindDirectory(n: Node, q: string): (r: Lookup)
    ensures r.Found? ==> ValidPath(n, r.path) && At(n, r.path).Name() == q
    ensures n.Name() == q <==> r == Found([])
  {
    if n.Name() == q then Found([])
    else if n.FileNode? then Raises
    else FindAmong(n.subdirs, 0, q)
  }

  /** The loop over `subdirectories` from position `i` on. */
  function FindAmong(subs: seq<Node>, i: nat, q: string): (r: Lookup)
    requires i <= |subs|
    ensures r.Found? ==> |r.path| > 0 && i <= r.path[0] < |subs|
    ensures r.Found? ==> ValidPath(subs[r.path[0]], r.path[1..]) && At(subs[r.path[0]], r.path[1..]).Name() == q
    decreases subs, |subs| - i
  {
    if i == |subs| then Absent
    else match FindDirectory(subs[i], q)
      case Found(p) => assert ([i] + p)[1..] == p; Found([i] + p)
      case Raises => Raises
      case Absent => FindAmong(subs, i + 1, q)
  }

  /** Every path of the tree at `n`, in pre-order: a node before its
      children, children in list order. */
  function PreOrder(n: Node): (ps: seq<Path>)
    ensures |ps| > 0 && ps[0] == []
    ensures forall k :: 0 <= k < |ps| ==> ValidPath(n, ps[k])
  {
    [[]] + (if n.Dir? then PreOrderFrom(n, 0) else [])
  }

  function PreOrderFrom(n: Node, i: nat): (ps: seq<Path>)
    requires n.Dir? && i <= |n.subdirs|
    ensures forall k :: 0 <= k < |ps| ==> ValidPath(n, ps[k]) && |ps[k]| > 0 && ps[k][0] >= i
    decreases n.subdirs, |n.subdirs| - i
  {
    if i == |n.subdirs| then []
    else
      var mine := Under(i, PreOrder(n.subdirs[i]));
      assert forall k :: 0 <= k < |mine| ==> ValidPath(n, mine[k]) by {
        forall k | 0 <= k < |mine| ensures ValidPath(n, mine[k]) {
          assert mine[k][1..] == PreOrder(n.subdirs[i])[k];
        }
      }
      mine + PreOrderFrom(n, i + 1)
  }

  function Under(i: nat, ps: seq<Path>): (r: seq<Path>)
    ensures |r| == |ps|
    ensures forall k :: 0 <= k < |ps| ==> r[k] == [i] + ps[k]
  {
    seq(|ps|, k requires 0 <= k < |ps| => [i] + ps[k])
  }

  /** A node the search passes over: a directory with another name. */
  predicate Passes(m: Node, q: string) {
    m.Dir? && m.Name() != q
  }

  /** Where a visit of the nodes at `ps`, in order, stops: at the first node
      named `q` or the first file, whichever comes first; `|ps|` if none. */
  function Stop(n: Node, ps: seq<Path>, q: string): (k: nat)
    requires forall j :: 0 <= j < |ps| ==> ValidPath(n, ps[j])
    ensures k <= |ps|
    ensures forall j :: 0 <= j < k ==> At(n, ps[j]).Dir? && At(n, ps[j]).Name() != q
    ensures k < |ps| ==> At(n, ps[k]).Name() == q || At(n, ps[k]).FileNode?
  {
    if ps == [] then 0
    else if At(n, ps[0]).Name() == q || At(n, ps[0]).FileNode? then 0
    else 1 + Stop(n, ps[1..], q)
  }

  /** The answer of a visit of the nodes at `ps`: the node it stops at if
      that is named `q`, a crash if it is a file with another name, and None
      if the visit runs off the end. */
  function Visit(n: Node, ps: seq<Path>, q: string): Lookup
    requires forall j :: 0 <= j < |ps| ==> ValidPath(n, ps[j])
  {
    var k := Stop(n, ps, q);
    if k == |ps| then Absent
    else if At(n, ps[k]).Name() == q then Found(ps[k])
    else Raises
  }

  /** Reference resolver: visit the nodes in pre-order; the first node named
      `q` is the answer, a file reached earlier raises, and none means None. */
  function Scan(n: Node, q: string): Lookup {
    Visit(n, PreOrder(n), q)
  }

  /** Visiting `a + b` is visiting `a`, then `b` if `a` ran off its end. */
  lemma VisitConcat(n: Node, a: seq<Path>, b: seq<Path>, q: string)
    requires forall j :: 0 <= j < |a| ==> ValidPath(n, a[j])
    requires forall j :: 0 <= j < |b| ==> ValidPath(n, b[j])
    ensures Visit(n, a + b, q) == if Visit(n, a, q).Absent? then Visit(n, b, q) else Visit(n, a, q)
  {
    StopConcat(n, a, b, q);
    var ka := Stop(n, a, q);
    if ka < |a| {
      assert (a + b)[ka] == a[ka];
    } else {
      var kb := Stop(n, b, q);
      if kb < |b| {
        assert (a + b)[|a| + kb] == b[kb];
      }
    }
  }

  /** Visiting child `i`'s paths from its parent gives child `i`'s answer,
      with a found path prefixed by `i`. */
  lemma VisitUnder(n: Node, i: nat, ps: seq<Path>, q: string)
    requires n.Dir? && i < |n.subdirs|
    requires forall j :: 0 <= j < |ps| ==> ValidPath(n.subdirs[i], ps[j])
    ensures forall j :: 0 <= j < |ps| ==> ValidPath(n, Under(i, ps)[j])
    ensures Visit(n, Under(i, ps), q) ==
      match Visit(n.subdirs[i], ps, q)
      case Found(p) => Found([i] + p)
      case other => other
  {
    StopUnder(n, i, ps, q);
  }

  lemma {:induction false} StopConcat(n: Node, a: seq<Path>, b: seq<Path>, q: string)
    requires forall j :: 0 <= j < |a| ==> ValidPath(n, a[j])
    requires forall j :: 0 <= j < |b| ==> ValidPath(n, b[j])
    ensures Stop(n, a + b, q) == if Stop(n, a, q) == |a| then |a| + Stop(n, b, q) else Stop(n, a, q)
  {
    if a == [] {
      assert a + b == b;
    } else {
      assert (a + b)[0] == a[0] && (a + b)[1..] == a[1..] + b;
      StopConcat(n, a[1..], b, q);
    }
  }

  lemma {:induction false} StopUnder(n: Node, i: nat, ps: seq<Path>, q: string)
    requires n.Dir? && i < |n.subdirs|
    requires forall j :: 0 <= j < |ps| ==> ValidPath(n.subdirs[i], ps[j])
    ensures forall j :: 0 <= j < |ps| ==> ValidPath(n, Under(i, ps)[j]) && At(n, Under(i, ps)[j]) == At(n.subdirs[i], ps[j])
    ensures Stop(n, Under(i, ps), q) == Stop(n.subdirs[i], ps, q)
  {
    var u := Under(i, ps);
    forall j | 0 <= j < |ps| ensures ValidPath(n, u[j]) && At(n, u[j]) == At(n.subdirs[i], ps[j]) {
      assert u[j][0] == i && u[j][1..] == ps[j];
    }
    if ps != [] {
      assert u[1..] == Under(i, ps[1..]);
      StopUnder(n, i, ps[1..], q);
    }
  }

  /** The listing from child `i` on is child `i`'s subtree, then the
      listing from child `i + 1` on. */
  lemma PreOrderFromStep(n: Node, i: nat)
    requires n.Dir? && i < |n.subdirs|
    ensures PreOrderFrom(n, i) == Under(i, PreOrder(n.subdirs[i])) + PreOrderFrom(n, i + 1)
  {
  }

  /** find_directory is exactly the pre-order reference scan. */
  lemma {:induction false} FindDirectoryIsScan(n: Node, q: string)
    ensures FindDirectory(n, q) == Scan(n, q)
    decreases n, 1
  {
    if n.Name() != q && n.Dir? {
      var rest := PreOrderFrom(n, 0);
      assert PreOrder(n) == [[]] + rest;
      VisitConcat(n, [[]], rest, q);
      assert Stop(n, [[]], q) == 1;
      FindAmongIsScan(n, 0, q);
    }
  }

  /** The loop from position `i` on is the reference scan over the pre-order
      of the children from `i` on. */
  lemma {:induction false} FindAmongIsScan(n: Node, i: nat, q: string)
    requires n.Dir? && i <= |n.subdirs|
    ensures FindAmong(n.subdirs, i, q) == Visit(n, PreOrderFrom(n, i), q)
    decreases n.subdirs, |n.subdirs| - i
  {
    if i < |n.subdirs| {
      var c := n.subdirs[i];
      var mine := Under(i, PreOrder(c));
      PreOrderFromStep(n, i);
      VisitUnder(n, i, PreOrder(c), q);
      VisitConcat(n, mine, PreOrderFrom(n, i + 1), q);
      FindDirectoryIsScan(c, q);
      FindAmongIsScan(n, i + 1, q);
    }
  }

  /** Every node of the tree occurs in the pre-order listing. */
  lemma {:induction false} PreOrderComplete(n: Node, p: Path)
    requires ValidPath(n, p)
    ensures p in PreOrder(n)
    decreases p
  {
    if p != [] {
      var i := p[0];
      PreOrderComplete(n.subdirs[i], p[1..]);
      var cs := PreOrder(n.subdirs[i]);
      var k :| 0 <= k < |cs| && cs[k] == p[1..];
      assert Under(i, cs)[k] == p;
      PreOrderFromContains(n, 0, i, Under(i, cs));
      assert PreOrder(n) == [[]] + PreOrderFrom(n, 0);
    }
  }

  lemma {:induction false} PreOrderFromContains(n: Node, j: nat, i: nat, mine: seq<Path>)
    requires n.Dir? && j <= i < |n.subdirs| && mine == Under(i, PreOrder(n.subdirs[i]))
    ensures forall k :: 0 <= k < |mine| ==> mine[k] in PreOrderFrom(n, j)
    decreases i - j
  {
    var here := Under(j, PreOrder(n.subdirs[j]));
    assert PreOrderFrom(n, j) == here + PreOrderFrom(n, j + 1);
    if j == i {
      forall k | 0 <= k < |mine| ensures mine[k] in PreOrderFrom(n, j) {
        assert (here + PreOrderFrom(n, j + 1))[k] == mine[k];
      }
    } else {
      PreOrderFromContains(n, j + 1, i, mine);
      forall k | 0 <= k < |mine| ensures mine[k] in PreOrderFrom(n, j) {
        var x :| x in PreOrderFrom(n, j + 1) && x == mine[k];
      }
    }
  }

  /** What the stopping position of the reference scan says about
      find_directory's answer. */
  lemma StopMeaning(n: Node, q: string)
    ensures var ps := PreOrder(n); var k := Stop(n, ps, q); var r := FindDirectory(n, q);
      && (r.Absent? <==> k == |ps|)
      && (r.Found? <==> k < |ps| && At(n, ps[k]).Name() == q)
      && (r.Found? ==> r.path == ps[k])
      && (r.Raises? <==> k < |ps| && At(n, ps[k]).FileNode? && At(n, ps[k]).Name() != q)
  {
    FindDirectoryIsScan(n, q);
  }

  /** A directory found is the first node named `q` in pre-order, and every
      node visited before it is a directory with another name. */
  lemma FindDirectoryFirstMatch(n: Node, q: string)
    requires FindDirectory(n, q).Found?
    ensures exists k ::
              && 0 <= k < |PreOrder(n)|
              && PreOrder(n)[k] == FindDirectory(n, q).path
              && forall j :: 0 <= j < k ==> Passes(At(n, PreOrder(n)[j]), q)
  {
    StopMeaning(n, q);
    var k := Stop(n, PreOrder(n), q);
    assert forall j :: 0 <= j < k ==> Passes(At(n, PreOrder(n)[j]), q);
  }

  /** None exactly when every node of the tree is a directory not named `q`. */
  lemma FindDirectoryNone(n: Node, q: string)
    ensures FindDirectory(n, q).Absent? <==> forall p :: ValidPath(n, p) ==> Passes(At(n, p), q)
  {
    StopMeaning(n, q);
    var ps := PreOrder(n);
    var k := Stop(n, ps, q);
    if FindDirectory(n, q).Absent? {
      forall p | ValidPath(n, p) ensures Passes(At(n, p), q) {
        PreOrderComplete(n, p);
      }
    } else {
      assert ValidPath(n, ps[k]) && !Passes(At(n, ps[k]), q);
    }
  }

  /** A crash exactly when the search reaches a file with another name
      before it reaches any node named `q`. */
  lemma FindDirectoryCrash(n: Node, q: string)
    ensures FindDirectory(n, q).Raises? <==>
      exists k ::
        && 0 <= k < |PreOrder(n)|
        && At(n, PreOrder(n)[k]).FileNode? && At(n, PreOrder(n)[k]).Name() != q
        && forall j :: 0 <= j < k ==> Passes(At(n, PreOrder(n)[j]), q)
  {
    var ps := PreOrder(n);
    if FindDirectory(n, q).Raises? {
      StopMeaning(n, q);
      var k := Stop(n, ps, q);
      assert forall j :: 0 <= j < k ==> Passes(At(n, ps[j]), q);
    } else if exists k :: 0 <= k < |ps| && At(n, ps[k]).FileNode? && At(n, ps[k]).Name() != q
                          && forall j :: 0 <= j < k ==> Passes(At(n, ps[j]), q) {
      var k :| 0 <= k < |ps| && At(n, ps[k]).FileNode? && At(n, ps[k]).Name() != q
               && forall j :: 0 <= j < k ==> Passes(At(n, ps[j]), q);
      CrashAt(n, q, k);
    }
  }

  /** Reaching a file with another name after passing only directories with
      other names is a crash. */
  lemma CrashAt(n: Node, q: string, k: nat)
    requires k < |PreOrder(n)| && At(n, PreOrder(n)[k]).FileNode? && At(n, PreOrder(n)[k]).Name() != q
    requires forall j :: 0 <= j < k ==> Passes(At(n, PreOrder(n)[j]), q)
    ensures FindDirectory(n, q).Raises?
  {
    StopAt(n, PreOrder(n), q, k);
    StopMeaning(n, q);
  }

  /** A visit stops at the first node that is not a directory with another
      name. */
  lemma {:induction false} StopAt(n: Node, ps: seq<Path>, q: string, k: nat)
    requires forall j :: 0 <= j < |ps| ==> ValidPath(n, ps[j])
    requires k < |ps| && !Passes(At(n, ps[k]), q)
    requires forall j :: 0 <= j < k ==> Passes(At(n, ps[j]), q)
    ensures Stop(n, ps, q) == k
  {
    if k > 0 {
      assert Passes(At(n, ps[0]), q);
      StopAt(n, ps[1..], q, k - 1);
    }
  }
}

=== FILE: scenarios.dfy ===
/** Concrete command sequences and what the model says they do. */
module Scenarios {
  import opened Wrappers
  import opened Tree
  import opened Resolver
  import opened Namespace
  import opened PathSplit
  import opened PathOps

  /** A path of one "/" followed by a separator-free leaf splits into
      ("/", leaf). */
  lemma SplitRootChild(p: string)
    requires |p| > 1 && p[0] == Sep && forall j :: 1 <= j < |p| ==> p[j] != Sep
    ensures Split(p) == ("/", p[1..])
  {
    var leaf := p[1..];
    assert p[|p| - |leaf|..] == leaf;
    assert p[..|p| - |leaf|] == "/";
    SplitUnique(p, "/", leaf);
  }

  /** A separator-free name splits into an empty head and itself. */
  lemma SplitBare(leaf: string)
    requires forall j :: 0 <= j < |leaf| ==> leaf[j] != Sep
    ensures Split(leaf) == ("", leaf)
  {
    assert leaf[|leaf| - |leaf|..] == leaf;
    assert leaf[..|leaf| - |leaf|] == "";
    SplitUnique(leaf, "", leaf);
  }

  /** `mkdir a; mkdir a; ls` at the root lists two directories named a. */
  lemma DuplicateMkdir()
    ensures Mkdir(Init(), "a") == Ok(AtRoot([EmptyDir("a")]))
    ensures Mkdir(AtRoot([EmptyDir("a")]), "a") == Ok(AtRoot([EmptyDir("a"), EmptyDir("a")]))
    ensures Ls(AtRoot([EmptyDir("a"), EmptyDir("a")])) == Ok([Line(DirectoryKind, "a"), Line(DirectoryKind, "a")])
  {
    MkdirAtRoot([], "a");
    assert Init() == AtRoot([]) && [] + [EmptyDir("a")] == [EmptyDir("a")];
    MkdirAtRoot([EmptyDir("a")], "a");
    assert [EmptyDir("a")] + [EmptyDir("a")] == [EmptyDir("a"), EmptyDir("a")];
    LsTwoDirs(AtRoot([EmptyDir("a"), EmptyDir("a")]));
  }

  /** A root without files holding `subs`, and current. */
  function AtRoot(subs: seq<Node>): FileSystem {
    FileSystem(Dir(RootName, [], subs), Some([]))
  }

  /** mkdir at such a root appends one empty directory to `subs`. */
  lemma MkdirAtRoot(subs: seq<Node>, name: string)
    ensures Mkdir(AtRoot(subs), name) == Ok(AtRoot(subs + [EmptyDir(name)]))
  {
    var r := Mkdir(AtRoot(subs), name).value;
    assert r.root == Replace(Dir(RootName, [], subs), [], Dir(RootName, [], subs + [EmptyDir(name)]));
  }

  lemma LsTwoDirs(fs: FileSystem)
    requires fs == AtRoot([EmptyDir("a"), EmptyDir("a")])
    ensures Ls(fs) == Ok([Line(DirectoryKind, "a"), Line(DirectoryKind, "a")])
  {
    var out := Ls(fs).value;
    assert |out| == 2 && out[0] == Line(DirectoryKind, "a") && out[1] == Line(DirectoryKind, "a");
    assert out == [Line(DirectoryKind, "a"), Line(DirectoryKind, "a")];
  }

  /** `rm x` on a fresh system raises for every name x without a
      separator (`rm missing.txt`, say): the head of x is the empty string,
      which names no directory, and the command then reads `files` of
      None. */
  lemma RmBareName(leaf: string)
    requires forall j :: 0 <= j < |leaf| ==> leaf[j] != Sep
    ensures LocateSource(Init().root, leaf) == Crash
    ensures Rm(Init(), leaf) == Crash
  {
    LocateBare(Init().root, leaf);
  }

  /** Naming the root explicitly, `rm /x` (`rm /missing.txt`, say) gives
      the NotFound report for every non-empty name x without a
      separator. */
  lemma RmRootedName(leaf: string)
    requires leaf != [] && forall j :: 0 <= j < |leaf| ==> leaf[j] != Sep
    ensures LocateSource(Init().root, "/" + leaf) == NotFound
    ensures Rm(Init(), "/" + leaf) == NotFound
  {
    var p := "/" + leaf;
    assert forall j :: 1 <= j < |p| ==> p[j] == leaf[j - 1];
    LocateRooted(Init().root, p);
  }

  /** In a tree whose only node is the root, a bare name has no parent. */
  lemma LocateBare(root: Node, path: string)
    requires root == EmptyDir(RootName)
    requires forall j :: 0 <= j < |path| ==> path[j] != Sep
    ensures LocateSource(root, path) == Crash
  {
    SplitBare(path);
    NoEmptyName(root);
  }

  /** No directory of a fresh tree is named by the empty string. */
  lemma NoEmptyName(root: Node)
    requires root == EmptyDir(RootName)
    ensures ParentDir(root, "") == None
  {
    assert FindDirectory(root, "") == Absent;
  }

  /** In a tree whose only node is the root, "/" followed by a name is a
      missing entry of the root. */
  lemma LocateRooted(root: Node, path: string)
    requires root == EmptyDir(RootName)
    requires |path| > 1 && path[0] == Sep && forall j :: 1 <= j < |path| ==> path[j] != Sep
    ensures LocateSource(root, path) == NotFound
  {
    SplitRootChild(path);
    assert ParentDir(root, "/") == Some([]);
    assert Entries(At(root, [])) == [];
  }

  /** `mkdir docs; cd docs; touch t.txt; echo t.txt hello; ls` lists one
      file, and a further `echo t.txt world` leaves that one file holding
      "world". */
  lemma DocsSession()
    ensures
      && Mkdir(Init(), "docs").Ok?
      && var s1 := Mkdir(Init(), "docs").value;
      && Cd(s1, "docs").Ok?
      && var s2 := Cd(s1, "docs").value;
      && Touch(s2, "t.txt").Ok?
      && var s3 := Touch(s2, "t.txt").value;
      && Echo(s3, "t.txt", "hello").Ok?
      && var s4 := Echo(s3, "t.txt", "hello").value;
      && Ls(s4) == Ok([Line(FileKind, "t.txt")])
      && Echo(s4, "t.txt", "world").Ok?
      && Echo(s4, "t.txt", "world").value == InDocs([File("t.txt", "world")])
  {
    MkdirDocs();
    CdDocs();
    TouchInDocs();
    EchoInDocs("", "hello");
    LsInDocs("hello");
    EchoInDocs("hello", "world");
  }

  /** The state with the root holding only the directory docs, which is
      current and holds `files`. */
  function InDocs(files: seq<File>): FileSystem {
    FileSystem(Dir(RootName, [], [Dir("docs", files, [])]), Some([0]))
  }

  lemma MkdirDocs()
    ensures Mkdir(Init(), "docs") == Ok(InDocs([]).(cwd := Some([])))
  {
    var r := Mkdir(Init(), "docs").value;
    assert r.root == Replace(EmptyDir(RootName), [], Dir(RootName, [], [EmptyDir("docs")]));
  }

  lemma CdDocs()
    ensures Cd(InDocs([]).(cwd := Some([])), "docs") == Ok(InDocs([]))
  {
    var fs := InDocs([]).(cwd := Some([]));
    assert FindDirectory(fs.root, "docs") == Found([0]) by {
      assert FindDirectory(EmptyDir("docs"), "docs") == Found([]);
    }
  }

  lemma TouchInDocs()
    ensures Touch(InDocs([]), "t.txt") == Ok(InDocs([File("t.txt", "")]))
  {
    var fs := InDocs([]);
    assert At(fs.root, [0]) == EmptyDir("docs");
    var d' := Dir("docs", [File("t.txt", "")], []);
    assert EmptyDir("docs").files + [File("t.txt", "")] == [File("t.txt", "")];
    assert EmptyDir("docs").(files := [File("t.txt", "")]) == d';
    assert Touch(fs, "t.txt") == Ok(WithCwd(fs, [0], d'));
    assert Replace(fs.root, [0], d') == InDocs([File("t.txt", "")]).root;
  }

  lemma EchoInDocs(before: string, after: string)
    ensures Echo(InDocs([File("t.txt", before)]), "t.txt", after) == Ok(InDocs([File("t.txt", after)]))
  {
    var fs := InDocs([File("t.txt", before)]);
    var d := At(fs.root, [0]);
    assert d == Dir("docs", [File("t.txt", before)], []);
    assert FirstNamed(FileNodes(d.files), "t.txt") == Some(0);
    var d' := Dir("docs", [File("t.txt", after)], []);
    assert d.(files := d.files[0 := File("t.txt", after)]) == d';
    assert Echo(fs, "t.txt", after) == Ok(WithCwd(fs, [0], d'));
    assert Replace(fs.root, [0], d') == InDocs([File("t.txt", after)]).root;
  }

  lemma LsInDocs(content: string)
    ensures Ls(InDocs([File("t.txt", content)])) == Ok([Line(FileKind, "t.txt")])
  {
    var out := Ls(InDocs([File("t.txt", content)])).value;
    assert |out| == 1 && out[0] == Line(FileKind, "t.txt");
    assert out == [Line(FileKind, "t.txt")];
  }

  /** A file moved with mv lands in the root's `subdirectories` under its
      own name: after `touch f; mv /f /g`, ls shows it as a directory, and a
      bare-name lookup that has to look past it raises. */
  lemma MovedFileBecomesDirectoryEntry()
    ensures Touch(Init(), "f") == Ok(FileAtRoot())
    ensures MvDefined(FileAtRoot(), "/f", "/g")
    ensures Mv(FileAtRoot(), "/f", "/g") == Ok(FileUnderRoot())
    ensures Ls(FileUnderRoot()) == Ok([Line(DirectoryKind, "f")])
    ensures Cd(FileUnderRoot(), "x") == Crash
  {
    var s1 := Touch(Init(), "f").value;
    assert s1.root == Replace(EmptyDir(RootName), [], Dir(RootName, [File("f", "")], []));
    MvTouchedFile(FileAtRoot(), "/f", "/g");
    AfterMovedFile();
  }

  /** The root holding the file f in its `files`, and current. */
  function FileAtRoot(): FileSystem {
    FileSystem(Dir(RootName, [File("f", "")], []), Some([]))
  }

  /** The root holding the file f in its `subdirectories`, and current. */
  function FileUnderRoot(): FileSystem {
    FileSystem(Dir(RootName, [], [FileNode(File("f", ""))]), Some([]))
  }

  /** In that state, `mv /f /g` moves the file into the root's
      `subdirectories`. */
  lemma MvTouchedFile(fs: FileSystem, src: string, dst: string)
    requires fs == FileAtRoot() && src == "/f" && dst == "/g"
    ensures Valid(fs)
    ensures MvDefined(fs, src, dst)
    ensures Mv(fs, src, dst) == Ok(FileUnderRoot())
  {
    LocateTouchedFile(fs);
    MvTouchedDefined(fs, src, dst);
    assert Mv(fs, src, dst) == Ok(Move(fs, Source([], 0), [], "g"));
    MoveAtRoot(fs);
  }

  lemma MvTouchedDefined(fs: FileSystem, src: string, dst: string)
    requires fs == FileAtRoot() && src == "/f" && dst == "/g"
    ensures MvDefined(fs, src, dst)
  {
    LocateTouchedFile(fs);
    assert !Inside([], [], 0, 1);
  }

  /** In that state, mv /f /g finds the file as entry 0 of the root, and
      the root as the destination. */
  lemma LocateTouchedFile(fs: FileSystem)
    requires fs == FileAtRoot()
    ensures Split("/g") == ("/", "g")
    ensures LocateSource(fs.root, "/f") == Ok(Source([], 0))
    ensures FindDirectory(fs.root, "/") == Found([]) && ParentDir(fs.root, "/") == Some([])
  {
    SplitRootChild("/f");
    SplitRootChild("/g");
    assert "/f"[1..] == "f" && "/g"[1..] == "g";
    assert Entries(fs.root) == [FileNode(File("f", ""))];
  }

  /** Moving entry 0 of the root into the root itself takes the file out of
      `files` and appends it to `subdirectories`. */
  lemma MoveAtRoot(fs: FileSystem)
    requires fs == FileAtRoot()
    ensures Movable(fs.root, Source([], 0), [])
    ensures Move(fs, Source([], 0), [], "g") == FileUnderRoot()
  {
    var e := FileNode(File("f", ""));
    assert Entries(fs.root)[0] == e;
    assert RemoveEntry(fs.root, 0) == Dir(RootName, [], []);
    var det := Detach(fs.root, [], 0);
    assert det == Dir(RootName, [], []);
    assert Shift([], [], 0, 1) == [];
    assert MoveTree(fs.root, Source([], 0), [], "g") == Attach(det, [], e);
    assert Attach(det, [], e) == Dir(RootName, [], [e]);
  }

  lemma AfterMovedFile()
    ensures Ls(FileUnderRoot()) == Ok([Line(DirectoryKind, "f")])
    ensures Cd(FileUnderRoot(), "x") == Crash
  {
    var fs := FileUnderRoot();
    var out := Ls(fs).value;
    assert |out| == 1 && out[0] == Line(DirectoryKind, "f");
    assert out == [Line(DirectoryKind, "f")];
    assert FindDirectory(fs.root, "x") == Raises;
  }

  /** `cp /a zz/x` where a holds a subdirectory: the destination head "zz"
      names nothing, so cp raises before it would copy a's subdirectories,
      and the model states that crash. */
  lemma CpToMissingHead(fs: FileSystem, src: string, dst: string)
    requires fs == AtRoot([Dir("a", [], [EmptyDir("b")])]) && src == "/a" && dst == "zz/x"
    ensures Valid(fs)
    ensures LocateSource(fs.root, src) == Ok(Source([], 0))
    ensures ParentDir(fs.root, Split(dst).0) == None
    ensures CpDefined(fs, src, dst)
    ensures Cp(fs, src, dst) == Crash
  {
    SplitRootChild(src);
    assert src[1..] == "a";
    SplitHeadChild(dst);
    assert Entries(fs.root) == [Dir("a", [], [EmptyDir("b")])];
    NoZz(fs.root);
  }

  /** "zz/x" splits into ("zz", "x"). */
  lemma SplitHeadChild(p: string)
    requires p == "zz/x"
    ensures Split(p) == ("zz", "x")
  {
    assert p[|p| - 1..] == "x" && p[..|p| - 1] == "zz/";
    assert "zz/"[2..] == "/" && "zz/"[0] != Sep;
    SplitUnique(p, "zz", "x");
  }

  /** No node of that tree is named "zz". */
  lemma NoZz(root: Node)
    requires root == Dir(RootName, [], [Dir("a", [], [EmptyDir("b")])])
    ensures FindDirectory(root, "zz") == Absent
  {
    assert FindDirectory(EmptyDir("b"), "zz") == Absent;
    assert FindDirectory(root.subdirs[0], "zz") == Absent;
  }
}

=== FILE: tree.dfy ===
/** The namespace tree: directories holding an ordered list of files and an
    ordered list of "subdirectories", which may also hold files that mv or
    cp put there. Nodes are addressed by paths of positions in `subdirs`. */
module Tree {
  import opened Wrappers

  /** Positions in successive `subdirs` lists, starting at the root. Files
      held in a `files` list have no path: the resolver never reaches them. */
  type Path = seq<nat>

  datatype File = File(name: string, content: string)

  datatype Node =
    | FileNode(file: File)
    | Dir(name: string, files: seq<File>, subdirs: seq<Node>)
  {
    /** The `name` attribute both kinds of object carry. */
    function Name(): string {
      match this
      case FileNode(f) => f.name
      case Dir(n, _, _) => n
    }
  }

  function EmptyDir(name: string): Node {
    Dir(name, [], [])
  }

  function FileNodes(fs: seq<File>): (r: seq<Node>)
    ensures |r| == |fs|
    ensures forall i :: 0 <= i < |fs| ==> r[i] == FileNode(fs[i])
  {
    seq(|fs|, i requires 0 <= i < |fs| => FileNode(fs[i]))
  }

  /** The list `files + subdirectories` that mv, cp and rm scan for their
      source entry. */
  function Entries(d: Node): seq<Node>
    requires d.Dir?
  {
    FileNodes(d.files) + d.subdirs
  }

  /** `after` is the directory `before` without entry `k` of its
      `files + subdirectories`: the same name, that one element gone from the
      list that held it, and the other list as it was. */
  predicate Without(before: Node, k: nat, after: Node)
    requires before.Dir? && k < |Entries(before)|
  {
    var nf := |before.files|;
    && after.Dir? && after.name == before.name
    && (k < nf ==> after.files == before.files[..k] + before.files[k + 1..] && after.subdirs == before.subdirs)
    && (k >= nf ==> after.files == before.files && after.subdirs == before.subdirs[..k - nf] + before.subdirs[k - nf + 1..])
  }

  /** `after` is the directory `before` seen after a change strictly below
      it: the same name, the same files and as many subdirectories. */
  predicate SameShell(before: Node, after: Node) {
    && before.Dir? && after.Dir? && after.name == before.name
    && after.files == before.files && |after.subdirs| == |before.subdirs|
  }

  /** Removes the single entry at position `k` of `Entries(d)`: the effect of
      the two identity filters over `files` and `subdirectories`. */
  function RemoveEntry(d: Node, k: nat): (r: Node)
    requires d.Dir? && k < |Entries(d)|
    ensures Without(d, k, r)
    ensures Entries(r) == Entries(d)[..k] + Entries(d)[k + 1..]
  {
    if k < |d.files| then
      var r := d.(files := d.files[..k] + d.files[k + 1..]);
      assert FileNodes(r.files) == FileNodes(d.files)[..k] + FileNodes(d.files)[k + 1..];
      r
    else
      var j := k - |d.files|;
      d.(subdirs := d.subdirs[..j] + d.subdirs[j + 1..])
  }

  predicate ValidPath(n: Node, p: Path)
    decreases p
  {
    p == [] || (n.Dir? && p[0] < |n.subdirs| && ValidPath(n.subdirs[p[0]], p[1..]))
  }

  function At(n: Node, p: Path): Node
    requires ValidPath(n, p)
    decreases p
  {
    if p == [] then n else At(n.subdirs[p[0]], p[1..])
  }

  /** `n` with the node at `p` replaced by `m`: how a mutation of one
      directory object is seen from the root. */
  function Replace(n: Node, p: Path, m: Node): (r: Node)
    requires ValidPath(n, p)
    ensures ValidPath(r, p) && At(r, p) == m
    ensures p != [] ==> r.Dir? && r.name == n.name && r.files == n.files && |r.subdirs| == |n.subdirs|
    decreases p
  {
    if p == [] then m
    else
      var i := p[0];
      var r := n.(subdirs := n.subdirs[i := Replace(n.subdirs[i], p[1..], m)]);
      assert ([i] + p[1..])[1..] == p[1..];
      r
  }

  lemma {:induction false} ValidPrefix(n: Node, p: Path, q: Path)
    requires ValidPath(n, p) && q <= p
    ensures ValidPath(n, q)
    decreases p
  {
    if q != [] {
      ValidPrefix(n.subdirs[p[0]], p[1..], q[1..]);
    }
  }

  /** Walking `p` then `r` is walking `p + r`. */
  lemma {:induction false} AtConcat(n: Node, p: Path, r: Path)
    requires ValidPath(n, p)
    ensures ValidPath(n, p + r) <==> ValidPath(At(n, p), r)
    ensures ValidPath(n, p + r) ==> At(n, p + r) == At(At(n, p), r)
    decreases p
  {
    if p == [] {
      assert p + r == r;
    } else {
      assert (p + r)[0] == p[0] && (p + r)[1..] == p[1..] + r;
      AtConcat(n.subdirs[p[0]], p[1..], r);
    }
  }

  /** The `i`-th subdirectory of the node at `q` is the node at `q + [i]`. */
  lemma AtChild(n: Node, q: Path, i: nat)
    requires ValidPath(n, q) && At(n, q).Dir? && i < |At(n, q).subdirs|
    ensures ValidPath(n, q + [i]) && At(n, q + [i]) == At(n, q).subdirs[i]
  {
    AtConcat(n, q, [i]);
    assert [i][1..] == [];
  }

  /** Below the replaced position the tree is the replacement. */
  lemma ReplaceBelow(n: Node, p: Path, m: Node, r: Path)
    requires ValidPath(n, p)
    ensures ValidPath(Replace(n, p, m), p + r) <==> ValidPath(m, r)
    ensures ValidPath(m, r) ==> At(Replace(n, p, m), p + r) == At(m, r)
  {
    AtConcat(Replace(n, p, m), p, r);
  }

  /** Nodes on neither side of the replaced position do not change. */
  lemma {:induction false} ReplaceFrame(n: Node, p: Path, m: Node, q: Path)
    requires ValidPath(n, p) && ValidPath(n, q)
    requires !(q <= p) && !(p <= q)
    ensures ValidPath(Replace(n, p, m), q) && At(Replace(n, p, m), q) == At(n, q)
    decreases p
  {
    var r := Replace(n, p, m);
    if p[0] == q[0] {
      assert !(q[1..] <= p[1..]) && !(p[1..] <= q[1..]) by {
        assert p == [p[0]] + p[1..] && q == [q[0]] + q[1..];
      }
      ReplaceFrame(n.subdirs[p[0]], p[1..], m, q[1..]);
    }
  }

  /** An ancestor of the replaced position sees the replacement below it and
      keeps its own kind and name. */
  lemma {:induction false} ReplaceAbove(n: Node, p: Path, m: Node, q: Path)
    requires ValidPath(n, p) && q < p
    ensures ValidPath(n, q) && ValidPath(Replace(n, p, m), q)
    ensures ValidPath(At(n, q), p[|q|..])
    ensures At(Replace(n, p, m), q) == Replace(At(n, q), p[|q|..], m)
    decreases p
  {
    ValidPrefix(n, p, q);
    if q == [] {
      assert p[|q|..] == p;
    } else {
      assert q[1..] < p[1..];
      assert p[|q|..] == p[1..][|q[1..]|..];
      ReplaceAbove(n.subdirs[p[0]], p[1..], m, q[1..]);
    }
  }

  /** Every proper ancestor of the replaced position keeps its shell. */
  lemma ReplaceShell(n: Node, p: Path, m: Node, q: Path)
    requires ValidPath(n, p) && q < p
    ensures ValidPath(n, q) && ValidPath(Replace(n, p, m), q)
    ensures SameShell(At(n, q), At(Replace(n, p, m), q))
  {
    ReplaceAbove(n, p, m, q);
    assert p[|q|..] != [];
  }

  /** Number of entries in the subtree at `n`, `n` included: each file of a
      `files` list and each node of a `subdirs` list counts once. */
  function Count(n: Node): nat {
    match n
    case FileNode(_) => 1
    case Dir(_, fs, subs) => 1 + |fs| + CountAll(subs)
  }

  function CountAll(s: seq<Node>): nat {
    if s == [] then 0 else Count(s[0]) + CountAll(s[1..])
  }

  lemma {:induction false} CountAllConcat(a: seq<Node>, b: seq<Node>)
    ensures CountAll(a + b) == CountAll(a) + CountAll(b)
  {
    if a != [] {
      assert (a + b)[0] == a[0] && (a + b)[1..] == a[1..] + b;
      CountAllConcat(a[1..], b);
    } else {
      assert a + b == b;
    }
  }

  lemma CountAllSplit(s: seq<Node>, i: nat)
    requires i < |s|
    ensures CountAll(s) == CountAll(s[..i]) + Count(s[i]) + CountAll(s[i + 1..])
  {
    assert s == s[..i] + ([s[i]] + s[i + 1..]);
    CountAllConcat(s[..i], [s[i]] + s[i + 1..]);
    CountAllConcat([s[i]], s[i + 1..]);
    assert ([s[i]] + s[i + 1..])[1..] == s[i + 1..];
  }

  lemma CountAllUpdate(s: seq<Node>, i: nat, x: Node)
    requires i < |s|
    ensures CountAll(s[i := x]) + Count(s[i]) == CountAll(s) + Count(x)
  {
    CountAllSplit(s, i);
    CountAllSplit(s[i := x], i);
    assert s[i := x][..i] == s[..i] && s[i := x][i + 1..] == s[i + 1..];
  }

  /** Replacing one node changes the entry count by the difference of the
      two subtrees' counts. */
  lemma {:induction false} CountReplace(n: Node, p: Path, m: Node)
    requires ValidPath(n, p)
    ensures Count(Replace(n, p, m)) + Count(At(n, p)) == Count(n) + Count(m)
    decreases p
  {
    if p != [] {
      var i := p[0];
      CountReplace(n.subdirs[i], p[1..], m);
      CountAllUpdate(n.subdirs, i, Replace(n.subdirs[i], p[1..], m));
    }
  }

  /** Removing entry `k` drops the count by the removed subtree's count. */
  lemma CountRemoveEntry(d: Node, k: nat)
    requires d.Dir? && k < |Entries(d)|
    ensures Count(RemoveEntry(d, k)) + Count(Entries(d)[k]) == Count(d)
  {
    if k >= |d.files| {
      var j := k - |d.files|;
      CountAllSplit(d.subdirs, j);
      CountAllConcat(d.subdirs[..j], d.subdirs[j + 1..]);
    }
  }

  /** `d` with `x` appended to its `subdirs` list. */
  function AddSubdir(d: Node, x: Node): (r: Node)
    requires d.Dir?
    ensures r.Dir? && r.name == d.name && r.files == d.files
    ensures |r.subdirs| == |d.subdirs| + 1 && r.subdirs[..|d.subdirs|] == d.subdirs
    ensures r.subdirs[|d.subdirs|] == x
    ensures Entries(r) == Entries(d) + [x]
    ensures Count(r) == Count(d) + Count(x)
  {
    CountAllConcat(d.subdirs, [x]);
    assert CountAll([x]) == Count(x) by { assert [x][1..] == []; }
    d.(subdirs := d.subdirs + [x])
  }

  /** `after` keeps `before`'s kind and name and the first
      `|before.subdirs|` entries of its `subdirs` list: a mutation that only
      appends children or edits the `files` list. */
  predicate Extends(before: Node, after: Node) {
    && before.Dir? && after.Dir? && after.name == before.name
    && |after.subdirs| >= |before.subdirs| && after.subdirs[..|before.subdirs|] == before.subdirs
  }

  /** Replacing the node at `p` by an extension of it keeps every path valid
      and every node off the ancestry of `p` as it was. */
  lemma ReplaceExtending(n: Node, p: Path, m: Node, q: Path)
    requires ValidPath(n, p) && Extends(At(n, p), m) && ValidPath(n, q)
    ensures ValidPath(Replace(n, p, m), q)
    ensures !(q <= p) ==> At(Replace(n, p, m), q) == At(n, q)
    ensures q < p ==> SameShell(At(n, q), At(Replace(n, p, m), q))
  {
    if q < p {
      ReplaceShell(n, p, m, q);
    } else if q == p {
    } else if p <= q {
      var r := q[|p|..];
      assert q == p + r;
      AtConcat(n, p, r);
      ReplaceBelow(n, p, m, r);
      var i := r[0];
      assert r == [i] + r[1..];
      assert m.subdirs[i] == m.subdirs[..|At(n, p).subdirs|][i];
      assert ValidPath(m, r) && At(m, r) == At(At(n, p), r);
    } else {
      ReplaceFrame(n, p, m, q);
    }
  }

  /** Replacing a node by itself changes nothing. */
  lemma {:induction false} ReplaceSame(n: Node, p: Path)
    requires ValidPath(n, p)
    ensures Replace(n, p, At(n, p)) == n
    decreases p
  {
    if p != [] {
      ReplaceSame(n.subdirs[p[0]], p[1..]);
    }
  }

  /** Position of the first node of `s` named `name`, as the source's
      `for ... if item.name == name: ... break` loops find it. */
  function FirstNamed(s: seq<Node>, name: string): (r: Option<nat>)
    ensures r.Some? ==> r.value < |s| && s[r.value].Name() == name
    ensures r.Some? ==> forall j :: 0 <= j < r.value ==> s[j].Name() != name
    ensures r.None? <==> forall j :: 0 <= j < |s| ==> s[j].Name() != name
  {
    FirstNamedFrom(s, 0, name)
  }

  function FirstNamedFrom(s: seq<Node>, i: nat, name: string): (r: Option<nat>)
    requires i <= |s|
    requires forall j :: 0 <= j < i ==> s[j].Name() != name
    ensures r.Some? ==> i <= r.value < |s| && s[r.value].Name() == name
    ensures r.Some? ==> forall j :: 0 <= j < r.value ==> s[j].Name() != name
    ensures r.None? <==> forall j :: 0 <= j < |s| ==> s[j].Name() != name
    decreases |s| - i
  {
    if i == |s| then None
    else if s[i].Name() == name then Some(i)
    else FirstNamedFrom(s, i + 1, name)
  }

  /** `q` is at or below entry `k` of the directory at `sp`, a directory
      with `nf` files: the entry is then a member of `subdirs`. */
  predicate Inside(q: Path, sp: Path, k: nat, nf: nat) {
    k >= nf && sp + [k - nf] <= q
  }

  /** The path of the node at `q` once entry `k` of the directory at `sp`
      (which has `nf` files) is removed: later siblings move one place up. */
  function Shift(q: Path, sp: Path, k: nat, nf: nat): Path {
    if sp < q then q[|sp| := ShiftIndex(q[|sp|], k, nf)] else q
  }

  /** The tree once entry `k` of the directory at `sp` is removed: the two
      identity filters over `files` and `subdirectories`. */
  function Detach(n: Node, sp: Path, k: nat): (r: Node)
    requires ValidPath(n, sp) && At(n, sp).Dir? && k < |Entries(At(n, sp))|
    ensures ValidPath(r, sp) && Without(At(n, sp), k, At(r, sp)) && At(r, sp) == RemoveEntry(At(n, sp), k)
    ensures Entries(At(r, sp)) == Entries(At(n, sp))[..k] + Entries(At(n, sp))[k + 1..]
    ensures Count(r) + Count(Entries(At(n, sp))[k]) == Count(n)
  {
    var d := At(n, sp);
    CountReplace(n, sp, RemoveEntry(d, k));
    CountRemoveEntry(d, k);
    Replace(n, sp, RemoveEntry(d, k))
  }

  /** Detaching keeps every node that was not inside the removed entry, at
      its shifted path: ancestors of `sp` keep kind and name, every other
      node is unchanged. The proper ancestors also keep their shells. */
  lemma DetachKeeps(n: Node, sp: Path, k: nat, q: Path)
    requires ValidPath(n, sp) && At(n, sp).Dir? && k < |Entries(At(n, sp))|
    requires ValidPath(n, q) && !Inside(q, sp, k, |At(n, sp).files|)
    ensures var r := Detach(n, sp, k); var q' := Shift(q, sp, k, |At(n, sp).files|);
      && ValidPath(r, q')
      && (q <= sp ==> q' == q && At(n, q).Dir? && At(r, q).Dir? && At(r, q).name == At(n, q).name)
      && (q < sp ==> SameShell(At(n, q), At(r, q)))
      && (!(q <= sp) ==> At(r, q') == At(n, q))
  {
    var d := At(n, sp);
    var nf := |d.files|;
    var m := RemoveEntry(d, k);
    var r := Detach(n, sp, k);
    assert r == Replace(n, sp, m);
    var q' := Shift(q, sp, k, nf);
    if q < sp {
      ReplaceShell(n, sp, m, q);
    } else if q == sp {
    } else if sp <= q {
      DetachBelow(n, sp, k, q);
    } else {
      ReplaceFrame(n, sp, m, q);
    }
  }

  /** The position of child `i` once entry `k` is removed. */
  function ShiftIndex(i: nat, k: nat, nf: nat): nat {
    if k >= nf && i > k - nf then i - 1 else i
  }

  lemma RemoveEntryKeepsChild(d: Node, k: nat, i: nat)
    requires d.Dir? && k < |Entries(d)| && i < |d.subdirs|
    requires !(k >= |d.files| && i == k - |d.files|)
    ensures ShiftIndex(i, k, |d.files|) < |RemoveEntry(d, k).subdirs|
    ensures RemoveEntry(d, k).subdirs[ShiftIndex(i, k, |d.files|)] == d.subdirs[i]
  {
  }

  lemma ShiftBelow(q: Path, sp: Path, k: nat, nf: nat)
    requires sp < q
    ensures Shift(q, sp, k, nf) == sp + ([ShiftIndex(q[|sp|], k, nf)] + q[|sp| + 1..])
  {
  }

  lemma DetachBelow(n: Node, sp: Path, k: nat, q: Path)
    requires ValidPath(n, sp) && At(n, sp).Dir? && k < |Entries(At(n, sp))|
    requires ValidPath(n, q) && !Inside(q, sp, k, |At(n, sp).files|) && sp < q
    ensures ValidPath(Detach(n, sp, k), Shift(q, sp, k, |At(n, sp).files|))
    ensures At(Detach(n, sp, k), Shift(q, sp, k, |At(n, sp).files|)) == At(n, q)
  {
    var d := At(n, sp);
    var nf := |d.files|;
    var m := RemoveEntry(d, k);
    var i := q[|sp|];
    var tail := q[|sp| + 1..];
    assert q == sp + ([i] + tail);
    AtConcat(n, sp, [i] + tail);
    assert ([i] + tail)[1..] == tail;
    assert k >= nf ==> i != k - nf by {
      assert k >= nf && i == k - nf ==> sp + [k - nf] <= q;
    }
    RemoveEntryKeepsChild(d, k, i);
    var i' := ShiftIndex(i, k, nf);
    ShiftBelow(q, sp, k, nf);
    assert ([i'] + tail)[1..] == tail;
    ReplaceBelow(n, sp, m, [i'] + tail);
  }

  /** The tree once `x` is appended to the `subdirs` of the directory at
      `dp`. */
  function Attach(n: Node, dp: Path, x: Node): (r: Node)
    requires ValidPath(n, dp) && At(n, dp).Dir?
    ensures ValidPath(r, dp) && At(r, dp) == AddSubdir(At(n, dp), x)
    ensures Count(r) == Count(n) + Count(x)
    ensures forall q :: ValidPath(n, q) ==> ValidPath(r, q)
    ensures forall q :: ValidPath(n, q) && !(q <= dp) ==> At(r, q) == At(n, q)
    ensures forall q :: ValidPath(n, q) && q < dp ==> SameShell(At(n, q), At(r, q))
  {
    var m := AddSubdir(At(n, dp), x);
    forall q | ValidPath(n, q)
      ensures ValidPath(Replace(n, dp, m), q)
      ensures !(q <= dp) ==> At(Replace(n, dp, m), q) == At(n, q)
      ensures q < dp ==> SameShell(At(n, q), At(Replace(n, dp, m), q))
    {
      ReplaceExtending(n, dp, m, q);
    }
    CountReplace(n, dp, m);
    Replace(n, dp, m)
  }

  /** An ancestor of the directory appended to keeps its shell, and every
      subdirectory of it not leading there. */
  lemma AttachAbove(n: Node, dp: Path, x: Node, q: Path)
    requires ValidPath(n, dp) && At(n, dp).Dir? && ValidPath(n, q) && q < dp
    ensures ValidPath(Attach(n, dp, x), q) && SameShell(At(n, q), At(Attach(n, dp, x), q))
    ensures forall i :: 0 <= i < |At(n, q).subdirs| && !(q + [i] <= dp) ==>
      At(Attach(n, dp, x), q).subdirs[i] == At(n, q).subdirs[i]
  {
    var r := Attach(n, dp, x);
    forall i | 0 <= i < |At(n, q).subdirs| && !(q + [i] <= dp)
      ensures At(r, q).subdirs[i] == At(n, q).subdirs[i]
    {
      AtChild(n, q, i);
      AtChild(r, q, i);
    }
  }

  /** One step of a replacement below `d`: only the child on the path
      changes. */
  lemma ReplaceStep(d: Node, p: Path, m: Node)
    requires ValidPath(d, p) && p != []
    ensures var r := Replace(d, p, m);
      && r.Dir? && r.name == d.name && r.files == d.files && |r.subdirs| == |d.subdirs|
      && ValidPath(d.subdirs[p[0]], p[1..])
      && r.subdirs[p[0]] == Replace(d.subdirs[p[0]], p[1..], m)
      && forall j :: 0 <= j < |d.subdirs| && j != p[0] ==> r.subdirs[j] == d.subdirs[j]
  {
  }

  /** A node without subdirectories has no path but the empty one. */
  lemma NoChildPath(n: Node, p: Path)
    requires ValidPath(n, p) && (n.FileNode? || n.subdirs == [])
    ensures p == []
  {
  }
}

=== FILE: wrappers.dfy ===
/** Failure-carrying results shared by the namespace operations. */
module Wrappers {

  datatype Option<+T> = None | Some(value: T)

  /** What a command does: it completes with a value, reports that its
      source entry does not exist (the printed "Error: ... not found."
      message, after which the namespace is as it was), or raises an
      uncaught exception, which ends the session. */
  datatype CmdResult<+T> = Ok(value: T) | NotFound | Crash
}
